=== FILE: README.md ===
# ANCS codec in Dafny

A model of the byte codec of the `ancs` Rust crate, which implements the
Apple Notification Center Service (ANCS) wire format. The model covers:

- the single-byte enumerations: `EventID`, `EventFlag`, `CategoryID`, `CommandID`,
  `ActionID`, `AppAttributeID` and `NotificationAttributeID`/`AttributeID`;
- the attribute TLV: an identifier byte, a little-endian `u16` length, then UTF-8 bytes;
- the 8-byte Notification Source record;
- the two Data Source responses: a header, then a `many0` list of TLVs;
- the two Control Point request encoders.

Parsers return `Nom.ParseResult`: `Ok(rest, value)`, `Error` (recoverable),
`Failure` (fatal) or `Panic`. The `Panic` case is where the Rust code calls
`unwrap` on `try_from` or on `String::from_utf8`. Encoders that can panic,
through `unwrap` on `last()`, return `Rust.Outcome`. A Rust `String` is its bytes under the UTF-8
grammar of section 4 of RFC 3629 (`Utf8.ValidUtf8`). The nom combinators the
code uses are small functions in module `Nom`: `le_u8`, `le_u16`, `le_u32`,
`count`, `many0` and `take_until`.

Files, one module each:

| file | module | contents |
|---|---|---|
| `rust.dfy` | `Rust` | integer widths, `Option`, `Outcome`, little-endian conversions |
| `utf8.dfy` | `Utf8` | UTF-8 validity, NUL termination |
| `nom.dfy` | `Nom` | the nom combinators |
| `event.dfy` | `Event` | the event enumerations |
| `category.dfy` | `Category` | the category enumeration |
| `command.dfy` | `Command` | the command enumeration |
| `action.dfy` | `Action` | the action enumeration |
| `app_attribute.dfy` | `AppAttribute` | the app attribute enumeration |
| `notification_attribute.dfy` | `NotificationAttribute` | the notification attribute enumeration |
| `attributes.dfy` | `Attributes` | the TLV |
| `notification_source.dfy` | `NotificationSource` | the Notification Source record |
| `data_source.dfy` | `DataSource` | the Data Source responses |
| `control_point.dfy` | `ControlPoint` | the Control Point requests |

Some declarations appear twice in the source: `NotificationAttributeID`
(src/attributes/notification.rs:9), `AppAttributeID` (src/attributes/app.rs:8)
and `Attribute` (src/attributes.rs:22) are declared again in the draft
src/attributes/attribute.rs (lines 9, 72 and 104) as `AttributeID`,
`AppAttributeID` and `Attribute`. Up to that renaming they have identical
variants, bytes and code, so each is modelled once.

The model follows the code where it departs from the protocol's intended design:

- `EventFlag` is a single-valued enumeration decoded by `trailing_zeros`, not a bit set.
- Request entries always carry the maximum length for sized identifiers. They never carry an optional one.
- No Control Point decoder exists in the code. `ControlPoint.DecodeIds`, `DecodeNotificationRequest` and `DecodeAppRequest` are reference definitions, used only to prove the encoders injective.
- The response parsers return their unconsumed bytes rather than requiring all input to be consumed.
- Refused bytes and invalid UTF-8 panic through `unwrap` rather than returning an error, except in `ActionID::parse`, which returns a fatal `Failure`.
- The app attribute list of `GetAppAttributesResponse` (src/characteristics/data_source.rs:1,64) and the identifiers of `GetAppAttributesRequest` (src/characteristics/control_point.rs:62) are keyed by the notification `AttributeID`, not by `AppAttributeID`.

## Model

| member | source | states |
|---|---|---|
| Rust.U16ToLe | src/attributes.rs:53 | reading the two bytes back little-endian gives the same `u16` |
| Rust.U16LeInverse | src/attributes.rs:97 | every byte pair `le_u16` reads is what `to_le_bytes` writes for the value read, so no pair is lost |
| Rust.U32ToLe | src/characteristics/notification_source.rs:89 | reading the four bytes back little-endian gives the same `u32` |
| Rust.U32LeInverse | src/characteristics/notification_source.rs:58 | every four bytes `u32::from_le_bytes` reads are what `to_le_bytes` writes for that value |
| Utf8.AsciiIsValid | src/attributes.rs:105 | every byte string below 0x80 is accepted by `String::from_utf8` |
| Utf8.TailStartsNoChar | src/attributes.rs:105 | a byte string starting with a continuation byte is refused by `String::from_utf8` |
| Utf8.NulTerminated | src/characteristics/data_source.rs:87-89 | the result ends in 0 and is the input with at most one 0 appended, and with none when the input already ends in 0 |
| Utf8.NulTerminatedIdempotent | src/characteristics/data_source.rs:87-89 | terminating an already terminated identifier changes nothing |
| Nom.Count | src/attributes.rs:98 | a success of `count(p, n)` holds exactly `n` values |
| Nom.CountLeU8 | src/attributes.rs:98 | `count(le_u8, n)` takes exactly the next `n` bytes and leaves the rest; with fewer than `n` bytes it is an `Error` at the end of the input |
| Nom.LeU8 | src/characteristics/data_source.rs:45 | `Error` at the input exactly on empty input, never a `Failure` or panic; a success's byte followed by the remainder is the input |
| Nom.LeU16 | src/attributes.rs:97 | `Error` at the input exactly below 2 bytes, never a `Failure` or panic; a success's value written back little-endian, followed by the remainder, is the input |
| Nom.LeU32 | src/characteristics/data_source.rs:46 | `Error` at the input exactly below 4 bytes, never a `Failure` or panic; a success's value written back little-endian, followed by the remainder, is the input |
| Nom.Many0 | src/characteristics/data_source.rs:47 | a success is no longer than the input and stops where the element parser gives a recoverable `Error`; an `Error` happens only where an element succeeded |
| Nom.Many0Outcome | src/characteristics/data_source.rs:47 | `many0` errs only if some success of the element parser consumed nothing, fails only if the element parser can fail, and panics only if it can panic |
| Nom.Many0LeavesSuffix | src/characteristics/data_source.rs:47 | when every success of the element parser leaves a suffix of its input, a success of `many0` stops at a suffix of its input |
| Nom.TakeUntil | src/characteristics/data_source.rs:102 | `Error` exactly when the tag occurs nowhere; otherwise the taken bytes and the remainder rebuild the input, the remainder starts with the tag, and the tag starts at no earlier index |
| Nom.OneByteTag | src/characteristics/data_source.rs:102 | a one-byte tag occurs in a byte string exactly when the byte is one of its elements |
| Nom.TakeUntilByte | src/characteristics/data_source.rs:102 | with a one-byte tag, the taken bytes never contain it and the input is taken bytes, tag, then the bytes after the tag |
| Nom.TakeUntilByteOf | src/characteristics/data_source.rs:102 | on `value + [b] + tail` with `b` not in `value`, `take_until([b])` returns exactly `value` and leaves `[b] + tail` |
| Event.EventIdToByte | src/attributes/event.rs:8-25 | each identifier's byte is in 0..2, the range `try_from` accepts; `EventIdRoundTrip` shows the bytes are told apart |
| Event.EventIdTryFromByte | src/attributes/event.rs:38-45 | accepts exactly the bytes 0..2, and each accepted byte is the byte of the identifier returned |
| Event.EventIdRoundTrip | src/attributes/event.rs:18-45 | every `EventID` decodes back from its byte |
| Event.EventFlagToByte | src/attributes/event.rs:67-75 | each flag's byte is the power of two of its declaration index (0x01 .. 0x10) |
| Event.FlagByteIsSingleBit | src/attributes/event.rs:67-75 | each flag's byte has its own bit set and no other |
| Event.TrailingZeros | src/attributes/event.rs:91 | the result counts the zero bits below the lowest set bit, and is 8 for the zero byte |
| Event.EventFlagTryFromByte | src/attributes/event.rs:90-99 | succeeds exactly when one of the five low bits is set, and then returns the flag of the lowest set bit |
| Event.FlagTryFromIsLowestBit | src/attributes/event.rs:90-99 | `try_from(b)` is `f` exactly when `f`'s bit is the lowest set bit of `b` |
| Event.EventFlagRoundTrip | src/attributes/event.rs:67-99 | every flag decodes back from its byte |
| Event.EventFlagExamples | src/attributes/event.rs:90-99 | 0x00 and 0x20 are refused, 0x02 is Important, and 0x03 is Silent, whose byte is not 0x03 |
| Category.ToByte | src/attributes/category.rs:17-34 | each category's byte is in 0..11, the range `try_from` accepts; `RoundTrip` shows the bytes are told apart |
| Category.TryFromByte | src/attributes/category.rs:39-55 | accepts exactly the bytes 0..11, each back to the category whose byte it is |
| Category.RoundTrip | src/attributes/category.rs:18-55 | every category decodes back from its byte |
| Command.ToByte | src/attributes/command.rs:8-16 | each command's byte is in 0..2, the range `try_from` accepts; `RoundTrip` shows the bytes are told apart |
| Command.TryFromByte | src/attributes/command.rs:21-28 | accepts exactly the bytes 0..2, each back to the command whose byte it is |
| Command.RoundTrip | src/attributes/command.rs:9-28 | every command decodes back from its byte |
| Action.ToByte | src/attributes/action.rs:9-25 | each action's byte is 0 or 1, the range `try_from` accepts; `RoundTrip` shows the bytes are told apart |
| Action.TryFromByte | src/attributes/action.rs:40-46 | accepts exactly 0 and 1, each back to the action whose byte it is |
| Action.RoundTrip | src/attributes/action.rs:19-46 | every action decodes back from its byte |
| Action.Parse | src/attributes/action.rs:61-71 | `Error` exactly on empty input; a fatal `Failure` placed after the byte exactly on an unknown byte; never a panic; a success consumes one byte |
| Action.ParseExample | src/attributes/action.rs:55-58 | `[0, 1]` parses to Positive with `[1]` left |
| AppAttribute.ToByte | src/attributes/app.rs:12-29 | DisplayName's byte is 0 |
| AppAttribute.TryFromByte | src/attributes/app.rs:44-49 | accepts only the byte 0 |
| AppAttribute.RoundTrip | src/attributes/app.rs:24-49 | DisplayName decodes back from its byte |
| AppAttribute.Parse | src/attributes/app.rs:64-68 | `Error` exactly on empty input; a panic exactly on a nonzero byte; a success consumes one byte |
| AppAttribute.ParseExample | tests/attributes/attribute.rs:55-65 | `[DisplayName, 255]` parses to DisplayName with one byte left |
| NotificationAttribute.ToByte | src/attributes/notification.rs:20-42 | each identifier's byte is in 0..7, the range `try_from` accepts; `ToByteInjective` shows the bytes are distinct |
| NotificationAttribute.TryFromByte | src/attributes/notification.rs:57-69 | accepts exactly the bytes 0..7, each back to the identifier whose byte it is |
| NotificationAttribute.RoundTrip | src/attributes/notification.rs:30-69 | every identifier decodes back from its byte |
| NotificationAttribute.ToByteInjective | src/attributes/notification.rs:30-41 | distinct identifiers have distinct bytes |
| NotificationAttribute.Parse | src/attributes/notification.rs:84-88 | `Error` exactly on empty input; a panic exactly on a byte above 7; a success consumes one byte |
| NotificationAttribute.ParseExamples | src/attributes/notification.rs:78-81 | `[0, 1]` is AppIdentifier with `[1]` left, and `[AppIdentifier, 255]` leaves one byte |
| NotificationAttribute.IsSized | src/attributes/notification.rs:103-110 | sized exactly for the identifiers numbered 1..3, which are Title, Subtitle and Message |
| Attributes.Encode | src/attributes.rs:49-69 | the encoding is 3 bytes plus the value bytes: the identifier's byte, a length field that reads back as `length`, then the value, whatever `length` says |
| Attributes.Parse | src/attributes.rs:95-108 | never a fatal `Failure`; a success is a present value whose byte length is `length`, and its encoding followed by the remainder is the input |
| Attributes.ParseErrors | src/attributes.rs:95-98 | a recoverable `Error` exactly on empty input or, with a known identifier, fewer bytes than the header plus the announced length |
| Attributes.ParsePanics | src/attributes.rs:96-105 | a panic exactly on an identifier byte above 7, or on a complete TLV whose value is not UTF-8 |
| Attributes.ParseEncode | src/attributes.rs:49-108 | a value of matching length, including the empty one, parses back from its encoding and leaves what follows untouched |
| Attributes.ParseExample | src/attributes.rs:82-92 | `[0, 4, 0, 't', 'e', 's', 't', 0]` is AppIdentifier/"test" with `[0]` left |
| Attributes.EncodeExample | src/attributes.rs:38-47 | AppIdentifier/"test" encodes to `[0, 4, 0, 116, 101, 115, 116]` |
| Attributes.EncodeNone | src/attributes.rs:62-66 | a `None` value still emits the length field and nothing else |
| Attributes.EncodeList | src/characteristics/data_source.rs:27-33 | at least three bytes per attribute, beginning with the first attribute's identifier byte |
| Attributes.ParseConsumes | src/attributes.rs:95-108 | every success of the TLV parser consumes at least one byte, so `many0`'s zero-progress guard never fires |
| Attributes.ParseLeavesSuffix | src/attributes.rs:95-108 | every success of the TLV parser leaves a suffix of its input |
| Attributes.ParseList | src/characteristics/data_source.rs:47 | `many0` of the TLV parser succeeds or panics, never errs or fails, and a success stops at a suffix of the input |
| Attributes.ParseListEncoded | src/characteristics/data_source.rs:47 | `many0` over well-formed encodings returns exactly those attributes and stops where they end, if what follows gives a recoverable `Error` |
| Attributes.ParseListExact | src/characteristics/data_source.rs:47 | `many0` of the TLV parser succeeds or panics, never errs; its attributes are well formed and re-encode to exactly the bytes consumed |
| NotificationSource.Encode | src/characteristics/notification_source.rs:87-102 | exactly 8 bytes, each field decoding back to the record's field, the flags byte being exactly the flag's single bit, with the uid little-endian |
| NotificationSource.Parse | src/characteristics/notification_source.rs:44-61 | never a fatal `Failure`; a success consumes exactly 8 bytes, takes the count byte as it is, and re-encodes to the bytes read, except that the flags byte need only decode to the same flag |
| NotificationSource.FromFields | src/characteristics/notification_source.rs:51-60 | panics exactly when the event id, the flags or the category is refused |
| NotificationSource.ParseOutcome | src/characteristics/notification_source.rs:45-56 | `Error` exactly below 8 bytes; with 8 bytes, a panic exactly when the event id, the flags or the category is refused |
| NotificationSource.ParseEncode | src/characteristics/notification_source.rs:44-102 | every record parses back from its 8 bytes, and any further bytes are returned as the remainder |
| NotificationSource.EncodeExample | src/characteristics/notification_source.rs:73-84 | NotificationAdded/Silent/Other/0/`u32::MAX` is `[0, 1, 0, 0, 255, 255, 255, 255]` |
| NotificationSource.FlagsNotCanonical | src/characteristics/notification_source.rs:55 | `[0, 3, 0, 0, 1, 2, 3, 4]` parses with flag Silent and re-encodes with 1 in place of 3 |
| NotificationSource.ReencodedFlagsByte | src/characteristics/notification_source.rs:44-102 | re-encoding any parsed record writes the lowest set bit of the flags byte read in its place, and every other byte as read |
| NotificationSource.SilentReencoded | src/characteristics/notification_source.rs:55 | any record read with flags byte 3 re-encodes with 1 there and all other bytes as read |
| DataSource.EncodeNotificationResponse | src/characteristics/data_source.rs:20-40 | the command byte, the uid little-endian, then the attributes' encodings in list order |
| DataSource.ParseNotificationResponse | src/characteristics/data_source.rs:44-57 | never a fatal `Failure`; a success has well-formed attributes, re-encodes to exactly the bytes consumed, and stops where the next TLV gives a recoverable `Error` |
| DataSource.ParseNotificationResponseErrors | src/characteristics/data_source.rs:44-52 | `Error` exactly below the 5-byte header, placed where a field ran out; with a header, an unknown command byte panics |
| DataSource.NotificationResponseBody | src/characteristics/data_source.rs:47-56 | the list is parsed before the command is checked: the result is a success or a panic, and it panics exactly when the list parser panics or the command byte is above 2 |
| DataSource.ParseEncodeNotificationResponse | src/characteristics/data_source.rs:20-57 | a response with well-formed attributes parses back from its encoding, and a following remainder on which the TLV parser gives a recoverable `Error` is left unconsumed |
| DataSource.NotificationResponseRoundTrip | src/characteristics/data_source.rs:20-57 | the whole encoding of such a response is consumed: `parse(encode(r)) == Ok([], r)` |
| DataSource.SingleAppIdentifierResponse | src/characteristics/data_source.rs:20-57 | a GetNotificationAttributes / `u32::MAX` response with one AppIdentifier `s` is `[0, 255, 255, 255, 255, 0]`, the length, then `s`, and parses back with nothing left |
| DataSource.ComRustTestExample | tests/characteristics/data_source.rs:23-41 | the "com.rust.test" bytes `[0, 255, 255, 255, 255, 0, 13, 0, ..]` and that response encode to and parse from each other with nothing left |
| DataSource.TerminateAsWritten | src/characteristics/data_source.rs:87-89 | panics exactly on the empty identifier, and otherwise is the NUL-terminated identifier |
| DataSource.EncodeAppResponse | src/characteristics/data_source.rs:67-96 | panics exactly on an empty identifier; otherwise the command byte, the NUL-terminated identifier, then the attributes |
| DataSource.EncodeEmptyIdentifierPanics | src/characteristics/data_source.rs:87 | an empty identifier makes the encoder panic |
| DataSource.ParseAppResponse | src/characteristics/data_source.rs:100-113 | the parser as written gives an `Error` or a panic, never a success |
| DataSource.AppResponseBody | src/characteristics/data_source.rs:103-112 | after the identifier: a success or a panic, a panic on a first byte above 7, and on success well-formed attributes that re-encode to the bytes consumed |
| DataSource.ParseAppResponseNeverOk | src/characteristics/data_source.rs:100-113 | `Error` exactly when no space follows the command byte, and a panic exactly when one does, so never a success |
| DataSource.AppResponseNeverRoundTrips | src/characteristics/data_source.rs:67-113 | nothing the encoder returns parses successfully |
| DataSource.AppResponseExample | src/characteristics/data_source.rs:67-113 | "Test" with no attributes encodes to `[1, 'T', 'e', 's', 't', 0]`, which parses to an `Error` |
| DataSource.EncodeAppResponseCorrected | src/characteristics/data_source.rs:82-93 | at least two bytes, with no panic, the first decoding back to the command; `EncodeAppResponseCorrectedShape` gives the single terminator |
| DataSource.EncodeAppResponseCorrectedShape | src/characteristics/data_source.rs:82-93 | an identifier without a 0 byte, the empty one included, gets exactly one terminator |
| DataSource.ParseAppResponseCorrected | src/characteristics/data_source.rs:100-113 | the corrected parser never gives a fatal `Failure`; a success has the command of the first byte and an identifier without a 0 byte |
| DataSource.ParseAppResponseCorrectedSound | src/characteristics/data_source.rs:100-113 | a success of the corrected parser has an identifier without 0 and well-formed attributes, and re-encodes to exactly the bytes consumed |
| DataSource.AppResponseCorrectedRoundTrip | src/characteristics/data_source.rs:67-113 | with the corrections, a response whose identifier has no 0 byte parses back from its encoding, the empty identifier included |
| ControlPoint.EncodeId | src/characteristics/control_point.rs:22-46 | three bytes exactly for the `is_sized` identifiers, the identifier's byte then `0xFF 0xFF`; one byte for the others |
| ControlPoint.EncodeIds | src/characteristics/control_point.rs:22-47 | one byte per identifier plus two for each sized one |
| ControlPoint.EncodeNotificationRequest | src/characteristics/control_point.rs:12-56 | `5 + Σ(3 if sized else 1)` bytes: the command byte, the uid little-endian, then the identifiers |
| ControlPoint.DecodeEncodeIds | src/characteristics/control_point.rs:22-46 | splitting the body by `is_sized` alone gives back exactly the identifier list |
| ControlPoint.EncodeIdsInjective | src/characteristics/control_point.rs:22-46 | distinct identifier lists give distinct bodies |
| ControlPoint.EncodeIdsAppend | src/characteristics/control_point.rs:22-47 | the encoding of a concatenation is the concatenation of the encodings, so entry order is kept |
| ControlPoint.DecodeEncodeNotificationRequest | src/characteristics/control_point.rs:12-56 | every request reads back from its bytes |
| ControlPoint.NotificationRequestInjective | src/characteristics/control_point.rs:12-56 | distinct requests give distinct bytes |
| ControlPoint.NotificationRequestExample | tests/characteristics/control_point.rs:9-16 | AppIdentifier and Title for uid `u32::MAX` are `[0, 255, 255, 255, 255, 0, 1, 255, 255]` |
| ControlPoint.IdBytes | src/characteristics/control_point.rs:72-76 | one byte per identifier, each decoding back to its identifier |
| ControlPoint.EncodeAppRequest | src/characteristics/control_point.rs:66-83 | one byte more than the identifier and the identifier list together: the command byte, the identifier as it is, then the identifier bytes |
| ControlPoint.AppRequestAmbiguous | src/characteristics/control_point.rs:66-83 | "a" asking for AppIdentifier and "a\0" asking for nothing both encode to `[c, 97, 0]` |
| ControlPoint.EncodeAppRequestCorrected | src/characteristics/control_point.rs:66-83 | the command byte, then the identifier ending in one 0: followed by a 0 when it has no 0 byte, left as it is when it already ends in 0; then the identifier bytes |
| ControlPoint.DecodeEncodeAppRequestCorrected | src/characteristics/control_point.rs:66-83 | with the terminator, every request whose identifier has no 0 byte reads back from its bytes |
| ControlPoint.AppRequestCorrectedInjective | src/characteristics/control_point.rs:66-83 | with the terminator, distinct such requests give distinct bytes |

## Left out

- src/main.rs: a superseded draft binary. It duplicates the types, reads a big-endian length, and only prints.
- src/lib.rs and src/characteristics.rs: module wiring and the service UUID. They have no behaviour.
- The characteristic UUID string constants: they are data with no behaviour.
- nom's `ErrorKind` and the error type's contents: an `Error` or `Failure` records only the input position.
- Derived `Debug`, `Clone` and `PartialEq` impls: structural equality is Dafny's own.
- BLE transport, subscription and discovery: they are not in the code.
- A Control Point request decoder: the code has none. The reference readers above only serve to state injectivity.
- The `try_from(id).unwrap()` on an already decoded identifier (src/attributes.rs:103, src/attributes/attribute.rs:143): it is the identity conversion and cannot panic, so the model takes the identifier as it is.
- Nom.Many0: the guard against a success that consumed nothing is written `|rest| >= |input|`. nom compares slice lengths, and a nom remainder is always a suffix of its input.
- tests/characteristics/notification_source.rs and the `parse` test of tests/characteristics/control_point.rs: they use names that the code does not declare, `GattNotification` and a tuple-form request parser. The model relies only on the doc examples and on the byte vector of the encoding test.

## Findings

| source | as written | input that shows it | evidently intended | confidence | as-written member | corrected member |
|---|---|---|---|---|---|---|
| src/characteristics/data_source.rs:102 | `take_until(" ")` ends the app identifier at the first space and leaves the space in the input, where the attribute parser panics on it | `[1, 'T', 'e', 's', 't', 0]`, the encoding of "Test", gives an `Error`; any input with a space after the command byte panics | the identifier ends at its NUL terminator, which is consumed | not executed | DataSource.ParseAppResponseNeverOk | DataSource.AppResponseCorrectedRoundTrip |
| src/characteristics/data_source.rs:87 | `app_identifier.last().unwrap()` panics on an empty identifier | GetAppAttributesResponse(GetAppAttributes, "", []) | the empty identifier is sent as a lone terminator `[c, 0]` | not executed | DataSource.EncodeEmptyIdentifierPanics | DataSource.AppResponseCorrectedRoundTrip |
| src/characteristics/control_point.rs:79 | the app identifier is appended without a NUL terminator | ("a", [AppIdentifier]) and ("a\0", []) both encode to `[c, 97, 0]` | the identifier is NUL-terminated, as the Get App Attributes command requires | not executed | ControlPoint.AppRequestAmbiguous | ControlPoint.AppRequestCorrectedInjective |

=== FILE: action.dfy ===
/** `ActionID`: the two notification actions, with a parser that fails fatally on unknown bytes. */
module Action {
  import opened Rust
  import opened Nom

  datatype ActionId = Positive | Negative

  /** `From<ActionID> for u8` */
  function ToByte(a: ActionId): (b: uint8)
    ensures b <= 1
  {
    match a
    case Positive => 0
    case Negative => 1
  }

  /** `TryFrom<u8> for ActionID`: 0 and 1 only; any other byte is an `ActionIDError`. */
  function TryFromByte(b: uint8): (r: Option<ActionId>)
    ensures r.Some? <==> b <= 1
    ensures r.Some? ==> ToByte(r.value) == b
  {
    match b
    case 0 => Some(Positive)
    case 1 => Some(Negative)
    case _ => None
  }

  lemma RoundTrip(a: ActionId)
    ensures TryFromByte(ToByte(a)) == Some(a)
  {
  }

  /**
    `ActionID::parse`: one byte. The empty input is `le_u8`'s recoverable
    `Error`; an unknown byte is a fatal `Failure` reported after that byte.
   */
  function Parse(input: bytes): (r: ParseResult<ActionId>)
    ensures r.Error? <==> |input| == 0
    ensures r.Error? ==> r.at == input
    ensures r.Failure? <==> |input| > 0 && input[0] > 1
    ensures r.Failure? ==> r.at == input[1..]
    ensures !r.Panic?
    ensures r.Ok? ==> r.rest == input[1..] && ToByte(r.value) == input[0]
  {
    var p :- LeU8(input);
    var (i, actionId) := p;
    match TryFromByte(actionId)
    case Some(a) => Ok(i, a)
    case None => Failure(i)
  }

  /** The example of the source: `[0, 1]` is `Positive` followed by `[1]`. */
  lemma ParseExample()
    ensures Parse([0, 1]) == Ok([1], Positive)
  {
  }
}

=== FILE: app_attribute.dfy ===
/**
  `AppAttributeID`: the attributes of an application. Declared identically in
  src/attributes/app.rs and src/attributes/attribute.rs; modelled once.
 */
module AppAttribute {
  import opened Rust
  import opened Nom

  datatype AppAttributeId = DisplayName

  /** `From<AppAttributeID> for u8` */
  function ToByte(a: AppAttributeId): (b: uint8)
    ensures b == 0
  {
    match a
    case DisplayName => 0
  }

  /** `TryFrom<u8> for AppAttributeID`: only the byte 0 is known. */
  function TryFromByte(b: uint8): (r: Option<AppAttributeId>)
    ensures r.Some? <==> b == 0
    ensures r.Some? ==> ToByte(r.value) == b
  {
    match b
    case 0 => Some(DisplayName)
    case _ => None
  }

  lemma RoundTrip(a: AppAttributeId)
    ensures TryFromByte(ToByte(a)) == Some(a)
  {
  }

  /**
    `AppAttributeID::parse`: one byte, passed to `try_from(..).unwrap()`, so an
    unknown byte panics; the empty input is `le_u8`'s recoverable `Error`.
   */
  function Parse(input: bytes): (r: ParseResult<AppAttributeId>)
    ensures r.Error? <==> |input| == 0
    ensures r.Error? ==> r.at == input
    ensures r.Panic? <==> |input| > 0 && input[0] != 0
    ensures !r.Failure?
    ensures r.Ok? ==> r.rest == input[1..] && ToByte(r.value) == input[0]
  {
    var p :- LeU8(input);
    var (i, attributeId) := p;
    match TryFromByte(attributeId)
    case Some(a) => Ok(i, a)
    case None => Panic
  }

  /** `[DisplayName, 255]` parses to `DisplayName` and leaves one byte. */
  lemma ParseExample()
    ensures Parse([ToByte(DisplayName), 255]) == Ok([255], DisplayName)
  {
  }
}

=== FILE: attributes.dfy ===
/**
  The attribute TLV of the Data Source characteristic: an identifier byte, a
  little-endian `u16` length, then the value's UTF-8 bytes. src/attributes.rs
  and src/attributes/attribute.rs each declare an `Attribute` with this wire
  shape, keyed by identically numbered identifier enumerations; this module
  models both.
 */
module Attributes {
  import opened Rust
  import opened Utf8
  import opened Nom
  import NotificationAttribute

  type AttributeId = NotificationAttribute.NotificationAttributeId

  /** `Attribute { id, length, value: Option<String> }`. Nothing ties `length` to `value`. */
  datatype Attribute = Attribute(id: AttributeId, length: uint16, value: Option<Str>)

  /** The bytes the value contributes to the encoding: none for `None`. */
  function ValueBytes(a: Attribute): bytes
  {
    match a.value
    case Some(s) => s
    case None => []
  }

  /** The value is present and `length` is its byte length: what a parse produces. */
  predicate WellFormed(a: Attribute)
  {
    a.value.Some? && |a.value.value| == a.length
  }

  /**
    `From<Attribute> for Vec<u8>`: id, `length.to_le_bytes()`, then the value
    bytes if any. `length` is written as given, whatever the value's size.
   */
  function Encode(a: Attribute): (r: bytes)
    ensures |r| == 3 + |ValueBytes(a)|
    ensures r[0] == NotificationAttribute.ToByte(a.id)
    ensures U16FromLe(r[1], r[2]) == a.length
    ensures r[3..] == ValueBytes(a)
  {
    [NotificationAttribute.ToByte(a.id)] + U16ToLe(a.length) + ValueBytes(a)
  }

  /** The length field of an input that has at least the three header bytes. */
  function DeclaredLength(input: bytes): uint16
    requires |input| >= 3
  {
    U16FromLe(input[1], input[2])
  }

  /** The input holds a whole TLV: a header and all the value bytes it announces. */
  predicate Complete(input: bytes)
  {
    |input| >= 3 && |input| >= 3 + DeclaredLength(input)
  }

  /** The announced value bytes of a complete input. */
  function RawValue(input: bytes): bytes
    requires Complete(input)
  {
    input[3..3 + DeclaredLength(input)]
  }

  /**
    `Attribute::parse`: the identifier (whose `parse` panics on a byte above 7),
    `le_u16`, then `count(le_u8, length)`, then `String::from_utf8(..).unwrap()`,
    which panics on ill-formed UTF-8. A short input is a recoverable `Error`.
    A success is a well-formed attribute whose encoding is exactly the bytes consumed.
   */
  function Parse(input: bytes): (r: ParseResult<Attribute>)
    ensures !r.Failure?
    ensures r.Ok? ==> WellFormed(r.value) && Encode(r.value) + r.rest == input
  {
    var p :- NotificationAttribute.Parse(input);
    var (i, id) := p;
    var q :- LeU16(i);
    var (i', length) := q;
    CountLeU8(length, i');
    var c :- Count(LeU8, length, i');
    var (i'', raw) := c;
    Reassemble(input, id, length, raw, i'');
    FromUtf8(id, length, raw, i'')
  }

  /** `String::from_utf8(value).unwrap()` and the construction of the attribute. */
  function FromUtf8(id: AttributeId, length: uint16, raw: bytes, rest: bytes): (r: ParseResult<Attribute>)
    ensures r.Ok? <==> ValidUtf8(raw)
    ensures r.Panic? <==> !ValidUtf8(raw)
    ensures r.Ok? ==> r.rest == rest && r.value == Attribute(id, length, Some(raw))
  {
    if ValidUtf8(raw) then Ok(rest, Attribute(id, length, Some(raw))) else Panic
  }

  /** The header and value an input was split into put it back together. */
  lemma Reassemble(input: bytes, id: AttributeId, length: uint16, raw: bytes, rest: bytes)
    requires |input| >= 3 && input[0] == NotificationAttribute.ToByte(id)
    requires U16FromLe(input[1], input[2]) == length
    requires input[3..] == raw + rest
    ensures [NotificationAttribute.ToByte(id)] + U16ToLe(length) + raw + rest == input
  {
    U16LeInverse(input[1], input[2]);
    assert input == [input[0]] + input[1..3] + input[3..];
  }

  /**
    The parse is a recoverable `Error` exactly when the input is empty or,
    with a known identifier, shorter than the header plus the announced value.
   */
  lemma ParseErrors(input: bytes)
    ensures Parse(input).Error? <==> |input| == 0 || (input[0] <= 7 && !Complete(input))
  {
    ParseHeader(input);
  }

  /**
    The parse panics exactly on an unknown identifier byte, or on a complete
    TLV whose value is not well-formed UTF-8.
   */
  lemma ParsePanics(input: bytes)
    ensures Parse(input).Panic? <==>
              |input| > 0 && (input[0] > 7 || (Complete(input) && !ValidUtf8(RawValue(input))))
  {
    ParseHeader(input);
  }

  /** How far the parse gets: the identifier, the length field, then the value bytes. */
  lemma ParseHeader(input: bytes)
    ensures |input| == 0 ==> Parse(input).Error?
    ensures |input| > 0 && input[0] > 7 ==> Parse(input).Panic?
    ensures |input| > 0 && input[0] <= 7 && !Complete(input) ==> Parse(input).Error?
    ensures Complete(input) && input[0] <= 7 ==>
              (Parse(input).Panic? <==> !ValidUtf8(RawValue(input))) &&
              (Parse(input).Ok? <==> ValidUtf8(RawValue(input)))
  {
    var p := NotificationAttribute.Parse(input);
    if |input| > 0 && input[0] <= 7 {
      var i := input[1..];
      assert p == Ok(i, p.value);
      if |i| >= 2 {
        var length := U16FromLe(i[0], i[1]);
        var i' := i[2..];
        assert LeU16(i) == Ok(i', length);
        assert length == DeclaredLength(input);
        CountLeU8(length, i');
        assert Complete(input) <==> length <= |i'|;
        if Complete(input) {
          var c := Count(LeU8, length, i');
          assert i'[..length] == RawValue(input);
          assert c == Ok(i'[length..], RawValue(input));
          assert Parse(input) == FromUtf8(p.value, length, RawValue(input), i'[length..]);
        } else {
          assert Count(LeU8, length, i').Error?;
        }
      }
    }
  }

  /**
    A well-formed attribute parses back from its encoding, whatever follows it,
    and the bytes after it are left untouched. A zero length gives back the empty string.
   */
  lemma ParseEncode(a: Attribute, rest: bytes)
    requires WellFormed(a)
    ensures Parse(Encode(a) + rest) == Ok(rest, a)
  {
    var input := Encode(a) + rest;
    assert input[0] == NotificationAttribute.ToByte(a.id);
    assert DeclaredLength(input) == a.length;
    assert RawValue(input) == ValueBytes(a);
    ParseHeader(input);
    var r := Parse(input);
    assert r.Ok?;
    var b := r.value;
    assert NotificationAttribute.ToByte(b.id) == input[0];
    NotificationAttribute.ToByteInjective(a.id, b.id);
    assert Encode(b)[1..3] == Encode(a)[1..3];
    assert b.length == a.length;
    assert (Encode(b) + r.rest)[3..3 + b.length] == ValueBytes(b);
    assert ValueBytes(b) == ValueBytes(a);
    assert r.rest == input[3 + a.length..];
  }

  /** The doc example: `[0, 4, 0, 't', 'e', 's', 't', 0]` gives AppIdentifier/"test" and leaves `[0]`. */
  lemma ParseExample()
    ensures Parse([0, 4, 0, 116, 101, 115, 116, 0]) ==
            Ok([0], Attribute(NotificationAttribute.AppIdentifier, 4, Some([116, 101, 115, 116])))
  {
    var input: bytes := [0, 4, 0, 116, 101, 115, 116, 0];
    var value: bytes := [116, 101, 115, 116];
    AsciiIsValid(value);
    var a := Attribute(NotificationAttribute.AppIdentifier, 4, Some(value));
    assert Encode(a) + [0] == input;
    ParseEncode(a, [0]);
  }

  /** AppIdentifier/"test" encodes to `[0, 4, 0, 116, 101, 115, 116]`, with no terminator. */
  lemma EncodeExample()
    ensures ValidUtf8([116, 101, 115, 116])
    ensures Encode(Attribute(NotificationAttribute.AppIdentifier, 4, Some([116, 101, 115, 116]))) ==
            [0, 4, 0, 116, 101, 115, 116]
  {
    AsciiIsValid([116, 101, 115, 116]);
  }

  /** A `None` value still emits the length field: exactly three bytes. */
  lemma EncodeNone(id: AttributeId, length: uint16)
    ensures Encode(Attribute(id, length, None)) ==
            [NotificationAttribute.ToByte(id)] + U16ToLe(length)
  {
  }

  /** Every attribute of the list is well formed. */
  predicate AllWellFormed(list: seq<Attribute>)
  {
    forall k :: 0 <= k < |list| ==> WellFormed(list[k])
  }

  /** The attributes' encodings, concatenated in order. */
  function EncodeList(list: seq<Attribute>): (r: bytes)
    ensures |r| >= 3 * |list|
    ensures |list| > 0 ==> r[0] == NotificationAttribute.ToByte(list[0].id)
  {
    if |list| == 0 then [] else Encode(list[0]) + EncodeList(list[1..])
  }

  /** Each successful parse consumes at least the three header bytes. */
  lemma ParseConsumes()
    ensures Consumes(Parse)
  {
    forall s: bytes | Parse(s).Ok?
      ensures |Parse(s).rest| < |s|
    {
      assert |Encode(Parse(s).value)| >= 3;
    }
  }

  /** Each successful parse leaves a suffix of its input. */
  lemma ParseLeavesSuffix()
    ensures LeavesSuffix(Parse)
  {
    forall s: bytes | Parse(s).Ok?
      ensures IsSuffix(Parse(s).rest, s)
    {
      var e, rest := Encode(Parse(s).value), Parse(s).rest;
      assert s == e + rest;
      assert s[|s| - |rest|..] == rest;
    }
  }

  /**
    `many0(Attribute::parse)`: never an `Error` or a `Failure`, since each
    attribute consumes its header and never fails; a success stops at a
    suffix of the input.
   */
  function ParseList(input: bytes): (r: ParseResult<seq<Attribute>>)
    ensures r.Ok? || r.Panic?
    ensures r.Ok? ==> IsSuffix(r.rest, input)
  {
    ParseConsumes();
    ParseLeavesSuffix();
    Many0Outcome(Parse, input);
    Many0LeavesSuffix(Parse, input);
    Many0(Parse, input)
  }

  /** One step of `many0`: after a parsed attribute, the rest of the list. */
  lemma ParseListStep(input: bytes)
    requires Parse(input).Ok?
    ensures |Parse(input).rest| < |input|
    ensures ParseList(input) == Prepend(Parse(input).value, ParseList(Parse(input).rest))
  {
    assert |Encode(Parse(input).value)| >= 3;
  }

  /** Putting a well-formed attribute in front of a list. */
  lemma ConsList(a: Attribute, list: seq<Attribute>, rest: bytes)
    ensures EncodeList([a] + list) + rest == Encode(a) + (EncodeList(list) + rest)
    ensures AllWellFormed([a] + list) <==> WellFormed(a) && AllWellFormed(list)
  {
    assert ([a] + list)[0] == a && ([a] + list)[1..] == list;
    if WellFormed(a) && AllWellFormed(list) {
      forall k | 0 <= k < |[a] + list|
        ensures WellFormed(([a] + list)[k])
      {
        if k > 0 {
          assert ([a] + list)[k] == list[k - 1];
        }
      }
    }
    if AllWellFormed([a] + list) {
      forall k | 0 <= k < |list|
        ensures WellFormed(list[k])
      {
        assert list[k] == ([a] + list)[k + 1];
      }
    }
  }

  /**
    `many0` over well-formed encodings stops exactly where they end, provided
    what follows gives a recoverable `Error` (the empty input does).
   */
  lemma {:induction false} ParseListEncoded(list: seq<Attribute>, rest: bytes)
    requires AllWellFormed(list)
    requires Parse(rest).Error?
    ensures ParseList(EncodeList(list) + rest) == Ok(rest, list)
    decreases |list|
  {
    if |list| == 0 {
      assert EncodeList(list) + rest == rest;
    } else {
      var a, tail := list[0], list[1..];
      assert list == [a] + tail;
      ConsList(a, tail, rest);
      var input := Encode(a) + (EncodeList(tail) + rest);
      ParseEncode(a, EncodeList(tail) + rest);
      ParseListStep(input);
      ParseListEncoded(tail, rest);
    }
  }

  /**
    Whatever `many0` returns never fails or panics on its own: it succeeds
    with well-formed attributes whose encodings are exactly the bytes consumed,
    or passes on an attribute's panic.
   */
  lemma {:induction false} ParseListExact(input: bytes)
    ensures ParseList(input).Ok? || ParseList(input).Panic?
    ensures ParseList(input).Ok? ==>
              AllWellFormed(ParseList(input).value) &&
              EncodeList(ParseList(input).value) + ParseList(input).rest == input
    decreases |input|
  {
    if Parse(input).Ok? {
      var rest, a := Parse(input).rest, Parse(input).value;
      ParseListStep(input);
      ParseListExact(rest);
      var t := ParseList(rest);
      if t.Ok? {
        assert ParseList(input) == Ok(t.rest, [a] + t.value);
        ConsList(a, t.value, t.rest);
      }
    }
  }
}

=== FILE: category.dfy ===
/** `CategoryID`: the twelve notification categories of the Notification Source record. */
module Category {
  import opened Rust

  datatype CategoryId =
    | Other | IncomingCall | MissedCall | Voicemail | Social | Schedule
    | Email | News | HealthAndFitness | BusinessAndFinance | Location | Entertainment

  /** `From<CategoryID> for u8`: the categories are numbered 0 .. 11 in declaration order. */
  function ToByte(c: CategoryId): (b: uint8)
    ensures b <= 11
  {
    match c
    case Other => 0
    case IncomingCall => 1
    case MissedCall => 2
    case Voicemail => 3
    case Social => 4
    case Schedule => 5
    case Email => 6
    case News => 7
    case HealthAndFitness => 8
    case BusinessAndFinance => 9
    case Location => 10
    case Entertainment => 11
  }

  /** `TryFrom<u8> for CategoryID`: exactly the bytes 0 .. 11, each back to its category. */
  function TryFromByte(b: uint8): (r: Option<CategoryId>)
    ensures r.Some? <==> b <= 11
    ensures r.Some? ==> ToByte(r.value) == b
  {
    match b
    case 0 => Some(Other)
    case 1 => Some(IncomingCall)
    case 2 => Some(MissedCall)
    case 3 => Some(Voicemail)
    case 4 => Some(Social)
    case 5 => Some(Schedule)
    case 6 => Some(Email)
    case 7 => Some(News)
    case 8 => Some(HealthAndFitness)
    case 9 => Some(BusinessAndFinance)
    case 10 => Some(Location)
    case 11 => Some(Entertainment)
    case _ => None
  }

  lemma RoundTrip(c: CategoryId)
    ensures TryFromByte(ToByte(c)) == Some(c)
  {
  }
}

=== FILE: command.dfy ===
/** `CommandID`: the Control Point commands, also echoed by Data Source responses. */
module Command {
  import opened Rust

  datatype CommandId = GetNotificationAttributes | GetAppAttributes | PerformNotificationAction

  /** `From<CommandID> for u8` (also what `command_id as u8` yields). */
  function ToByte(c: CommandId): (b: uint8)
    ensures b <= 2
  {
    match c
    case GetNotificationAttributes => 0
    case GetAppAttributes => 1
    case PerformNotificationAction => 2
  }

  /** `TryFrom<u8> for CommandID`: exactly the bytes 0 .. 2, each back to its command. */
  function TryFromByte(b: uint8): (r: Option<CommandId>)
    ensures r.Some? <==> b <= 2
    ensures r.Some? ==> ToByte(r.value) == b
  {
    match b
    case 0 => Some(GetNotificationAttributes)
    case 1 => Some(GetAppAttributes)
    case 2 => Some(PerformNotificationAction)
    case _ => None
  }

  lemma RoundTrip(c: CommandId)
    ensures TryFromByte(ToByte(c)) == Some(c)
  {
  }
}

=== FILE: control_point.dfy ===
/**
  The Control Point characteristic's requests, as the notification consumer
  (the accessory) writes them. Only the encoders exist; the decoders
  here are reference definitions that show which encodings can be read back.
 */
module ControlPoint {
  import opened Rust
  import opened Utf8
  import opened Nom
  import Command
  import NotificationAttribute

  type AttributeId = NotificationAttribute.NotificationAttributeId

  datatype GetNotificationAttributesRequest = GetNotificationAttributesRequest(
    commandId: Command.CommandId,
    notificationUid: uint32,
    attributeIds: seq<AttributeId>)

  /**
    One requested attribute: its byte, followed for Title, Subtitle and
    Message by the maximum length 65535 as a little-endian `u16`. The
    three-byte arms are exactly the identifiers `is_sized` names.
   */
  function EncodeId(a: AttributeId): (r: bytes)
    ensures |r| == 3 <==> NotificationAttribute.IsSized(a)
    ensures |r| == 1 <==> !NotificationAttribute.IsSized(a)
    ensures NotificationAttribute.TryFromByte(r[0]) == Some(a)
    ensures |r| == 3 ==> r[1] == 0xFF && r[2] == 0xFF
  {
    NotificationAttribute.RoundTrip(a);
    U16LeInverse(0xFF, 0xFF);
    match a
    case Title => [NotificationAttribute.ToByte(a)] + U16ToLe(U16_MAX)
    case Subtitle => [NotificationAttribute.ToByte(a)] + U16ToLe(U16_MAX)
    case Message => [NotificationAttribute.ToByte(a)] + U16ToLe(U16_MAX)
    case _ => [NotificationAttribute.ToByte(a)]
  }

  /** How many of the identifiers carry a maximum length. */
  function CountSized(ids: seq<AttributeId>): nat
  {
    if |ids| == 0 then 0
    else (if NotificationAttribute.IsSized(ids[0]) then 1 else 0) + CountSized(ids[1..])
  }

  /** The requested attributes in order: one byte each, two more for every sized one. */
  function EncodeIds(ids: seq<AttributeId>): (r: bytes)
    ensures |r| == |ids| + 2 * CountSized(ids)
  {
    if |ids| == 0 then [] else EncodeId(ids[0]) + EncodeIds(ids[1..])
  }

  /**
    `Into<Vec<u8>> for GetNotificationAttributesRequest`: the command byte,
    the uid as a little-endian `u32`, then the requested attributes.
   */
  function EncodeNotificationRequest(r: GetNotificationAttributesRequest): (out: bytes)
    ensures |out| == 5 + |r.attributeIds| + 2 * CountSized(r.attributeIds)
    ensures Command.TryFromByte(out[0]) == Some(r.commandId)
    ensures U32FromLe(out[1], out[2], out[3], out[4]) == r.notificationUid
    ensures out[5..] == EncodeIds(r.attributeIds)
  {
    Command.RoundTrip(r.commandId);
    [Command.ToByte(r.commandId)] + U32ToLe(r.notificationUid) + EncodeIds(r.attributeIds)
  }

  /**
    Reading a request body back using `is_sized` alone: an identifier byte,
    and for a sized identifier two length bytes to skip. `None` when a byte
    is no identifier or a length is cut short.
   */
  function DecodeIds(body: bytes): (r: Option<seq<AttributeId>>)
    decreases |body|
  {
    if |body| == 0 then Some([])
    else
      match NotificationAttribute.TryFromByte(body[0])
      case None => None
      case Some(a) =>
        var width := if NotificationAttribute.IsSized(a) then 3 else 1;
        if |body| < width then None
        else
          match DecodeIds(body[width..])
          case None => None
          case Some(tail) => Some([a] + tail)
  }

  /** Decoding the front identifier of an encoding. */
  lemma DecodeIdsStep(a: AttributeId, rest: bytes)
    ensures DecodeIds(EncodeId(a) + rest) ==
            match DecodeIds(rest)
            case None => None
            case Some(tail) => Some([a] + tail)
  {
    var body := EncodeId(a) + rest;
    assert body[0] == EncodeId(a)[0];
    assert body[|EncodeId(a)|..] == rest;
  }

  /** The request body splits back into exactly the identifiers it was built from. */
  lemma {:induction false} DecodeEncodeIds(ids: seq<AttributeId>)
    ensures DecodeIds(EncodeIds(ids)) == Some(ids)
    decreases |ids|
  {
    if |ids| > 0 {
      DecodeIdsStep(ids[0], EncodeIds(ids[1..]));
      DecodeEncodeIds(ids[1..]);
      assert [ids[0]] + ids[1..] == ids;
    }
  }

  /** Distinct identifier lists give distinct request bodies. */
  lemma EncodeIdsInjective(ids: seq<AttributeId>, ids': seq<AttributeId>)
    ensures EncodeIds(ids) == EncodeIds(ids') ==> ids == ids'
  {
    DecodeEncodeIds(ids);
    DecodeEncodeIds(ids');
  }

  /** Concatenated lists encode as the concatenation: the order of the entries is kept. */
  lemma {:induction false} EncodeIdsAppend(ids: seq<AttributeId>, ids': seq<AttributeId>)
    ensures EncodeIds(ids + ids') == EncodeIds(ids) + EncodeIds(ids')
    decreases |ids|
  {
    if |ids| == 0 {
      assert ids + ids' == ids';
    } else {
      assert (ids + ids')[0] == ids[0];
      assert (ids + ids')[1..] == ids[1..] + ids';
      EncodeIdsAppend(ids[1..], ids');
    }
  }

  /** A reference reader for a whole GetNotificationAttributes request. */
  function DecodeNotificationRequest(out: bytes): (r: Option<GetNotificationAttributesRequest>)
  {
    if |out| < 5 then None
    else
      match (Command.TryFromByte(out[0]), DecodeIds(out[5..]))
      case (Some(c), Some(ids)) => Some(GetNotificationAttributesRequest(c, U32FromLe(out[1], out[2], out[3], out[4]), ids))
      case _ => None
  }

  /** Every request can be read back from its bytes. */
  lemma DecodeEncodeNotificationRequest(r: GetNotificationAttributesRequest)
    ensures DecodeNotificationRequest(EncodeNotificationRequest(r)) == Some(r)
  {
    DecodeEncodeIds(r.attributeIds);
  }

  /** Distinct requests give distinct bytes. */
  lemma NotificationRequestInjective(r: GetNotificationAttributesRequest, r': GetNotificationAttributesRequest)
    ensures EncodeNotificationRequest(r) == EncodeNotificationRequest(r') ==> r == r'
  {
    DecodeEncodeNotificationRequest(r);
    DecodeEncodeNotificationRequest(r');
  }

  /**
    AppIdentifier and Title for uid `u32::MAX`: `[0, 255, 255, 255, 255, 0, 1, 255, 255]`,
    and those bytes read back as that request.
   */
  lemma NotificationRequestExample(wire: bytes)
    requires wire == [0, 255, 255, 255, 255, 0, 1, 255, 255]
    ensures var r := GetNotificationAttributesRequest(
              Command.GetNotificationAttributes, U32_MAX,
              [NotificationAttribute.AppIdentifier, NotificationAttribute.Title]);
            EncodeNotificationRequest(r) == wire && DecodeNotificationRequest(wire) == Some(r)
  {
    var ids := [NotificationAttribute.AppIdentifier, NotificationAttribute.Title];
    var r := GetNotificationAttributesRequest(Command.GetNotificationAttributes, U32_MAX, ids);
    assert ids[1..][1..] == [];
    var body := EncodeId(ids[0]) + EncodeId(ids[1]);
    assert EncodeIds(ids) == body;
    U32MaxLe();
    MaxUidRequestBytes(EncodeNotificationRequest(r), U32ToLe(U32_MAX), EncodeIds(ids), EncodeId(ids[0]), EncodeId(ids[1]), wire);
    DecodeEncodeNotificationRequest(r);
  }

  /** The wire bytes of a request for uid `0xFFFFFFFF`, a one-byte id and a sized id with its `0xFFFF` length. */
  lemma MaxUidRequestBytes(encoded: bytes, uid: bytes, body: bytes, first: bytes, second: bytes, wire: bytes)
    requires encoded == [0] + uid + body && uid == [255, 255, 255, 255] && body == first + second
    requires |first| == 1 && first[0] == 0
    requires |second| == 3 && second[0] == 1 && second[1] == 255 && second[2] == 255
    requires wire == [0, 255, 255, 255, 255, 0, 1, 255, 255]
    ensures encoded == wire
  {
    assert first == [0] && second == [1, 255, 255];
  }

  datatype GetAppAttributesRequest = GetAppAttributesRequest(
    commandId: Command.CommandId,
    appIdentifier: Str,
    attributeIds: seq<AttributeId>)

  /** One byte per identifier, in order, with no lengths. */
  function IdBytes(ids: seq<AttributeId>): (r: bytes)
    ensures |r| == |ids|
    ensures forall k :: 0 <= k < |ids| ==> NotificationAttribute.TryFromByte(r[k]) == Some(ids[k])
  {
    if |ids| == 0 then []
    else
      NotificationAttribute.RoundTrip(ids[0]);
      [NotificationAttribute.ToByte(ids[0])] + IdBytes(ids[1..])
  }

  /**
    `From<GetAppAttributesRequest> for Vec<u8>`: the command byte, the app
    identifier's bytes as they are, then one byte per identifier. No NUL
    terminator is added after the app identifier.
   */
  function EncodeAppRequest(r: GetAppAttributesRequest): (out: bytes)
    ensures |out| == 1 + |r.appIdentifier| + |r.attributeIds|
    ensures Command.TryFromByte(out[0]) == Some(r.commandId)
    ensures out[1..1 + |r.appIdentifier|] == r.appIdentifier
    ensures out[1 + |r.appIdentifier|..] == IdBytes(r.attributeIds)
  {
    Command.RoundTrip(r.commandId);
    [Command.ToByte(r.commandId)] + r.appIdentifier + IdBytes(r.attributeIds)
  }

  /**
    Without a terminator the encoding is ambiguous: identifier "a" asking for
    AppIdentifier and identifier "a\0" asking for nothing are both `[c, 97, 0]`.
   */
  lemma AppRequestAmbiguous(c: Command.CommandId, a: Str, a0: Str)
    requires a == [97] && a0 == [97, 0]
    ensures var r := GetAppAttributesRequest(c, a, [NotificationAttribute.AppIdentifier]);
            var r' := GetAppAttributesRequest(c, a0, []);
            r != r' && EncodeAppRequest(r) == EncodeAppRequest(r') &&
            EncodeAppRequest(r) == [Command.ToByte(c), 97, 0]
  {
    var ids := [NotificationAttribute.AppIdentifier];
    assert IdBytes(ids) == [0] by {
      assert ids[1..] == [];
    }
  }

  /**
    The app identifier NUL-terminated, as the ANCS Get App Attributes command
    requires: `[c] + app + [0] + ids` for an identifier without a NUL byte,
    and no second terminator for one that already ends in a NUL.
   */
  function EncodeAppRequestCorrected(r: GetAppAttributesRequest): (out: bytes)
    ensures |out| >= 2
    ensures Command.TryFromByte(out[0]) == Some(r.commandId)
    ensures 0 !in r.appIdentifier ==>
              out == [Command.ToByte(r.commandId)] + (r.appIdentifier + [0]) + IdBytes(r.attributeIds)
    ensures |r.appIdentifier| > 0 && r.appIdentifier[|r.appIdentifier| - 1] == 0 ==>
              out == [Command.ToByte(r.commandId)] + r.appIdentifier + IdBytes(r.attributeIds)
    ensures |out| >= |r.attributeIds| + 2 && out[|out| - |r.attributeIds| - 1] == 0
    ensures out[|out| - |r.attributeIds|..] == IdBytes(r.attributeIds)
  {
    Command.RoundTrip(r.commandId);
    [Command.ToByte(r.commandId)] + NulTerminated(r.appIdentifier) + IdBytes(r.attributeIds)
  }

  /** Reading the identifier bytes back, one identifier per byte. */
  function DecodeIdBytes(body: bytes): (r: Option<seq<AttributeId>>)
    ensures r.Some? ==> IdBytes(r.value) == body
  {
    if |body| == 0 then Some([])
    else
      match (NotificationAttribute.TryFromByte(body[0]), DecodeIdBytes(body[1..]))
      case (Some(a), Some(tail)) =>
        assert ([a] + tail)[1..] == tail;
        Some([a] + tail)
      case _ => None
  }

  lemma {:induction false} DecodeIdBytesOf(ids: seq<AttributeId>)
    ensures DecodeIdBytes(IdBytes(ids)) == Some(ids)
    decreases |ids|
  {
    if |ids| > 0 {
      var b := IdBytes(ids);
      assert b[1..] == IdBytes(ids[1..]);
      DecodeIdBytesOf(ids[1..]);
      assert [ids[0]] + ids[1..] == ids;
    }
  }

  /**
    A reference reader for the corrected encoding: the command byte, the
    identifier up to the first NUL, then the identifier bytes.
   */
  function DecodeAppRequest(out: bytes): (r: Option<GetAppAttributesRequest>)
  {
    if |out| == 0 then None
    else
      match TakeUntil([0], out[1..])
      case Ok(rest, app) =>
        if |rest| > 0 && ValidUtf8(app) then
          match (Command.TryFromByte(out[0]), DecodeIdBytes(rest[1..]))
          case (Some(c), Some(ids)) => Some(GetAppAttributesRequest(c, app, ids))
          case _ => None
        else None
      case _ => None
  }

  /** With the terminator, every request whose identifier holds no NUL reads back from its bytes. */
  lemma DecodeEncodeAppRequestCorrected(r: GetAppAttributesRequest)
    requires 0 !in r.appIdentifier
    ensures DecodeAppRequest(EncodeAppRequestCorrected(r)) == Some(r)
  {
    var out := EncodeAppRequestCorrected(r);
    var tail := IdBytes(r.attributeIds);
    assert out[1..] == r.appIdentifier + [0] + tail;
    TakeUntilByteOf(0, r.appIdentifier, tail);
    assert ([0] + tail)[1..] == tail;
    DecodeIdBytesOf(r.attributeIds);
  }

  /** Hence distinct requests whose identifiers hold no NUL have distinct corrected encodings. */
  lemma AppRequestCorrectedInjective(r: GetAppAttributesRequest, r': GetAppAttributesRequest)
    requires 0 !in r.appIdentifier && 0 !in r'.appIdentifier
    ensures EncodeAppRequestCorrected(r) == EncodeAppRequestCorrected(r') ==> r == r'
  {
    DecodeEncodeAppRequestCorrected(r);
    DecodeEncodeAppRequestCorrected(r');
  }
}

=== FILE: data_source.dfy ===
/**
  The Data Source characteristic's responses: a command byte, then either a
  notification uid or an app identifier, then a list of attribute TLVs read
  greedily with `many0`.
 */
module DataSource {
  import opened Rust
  import opened Utf8
  import opened Nom
  import Command
  import Attributes

  type Attribute = Attributes.Attribute

  datatype GetNotificationAttributesResponse = GetNotificationAttributesResponse(
    commandId: Command.CommandId,
    notificationUid: uint32,
    attributeList: seq<Attribute>)

  /** `From<GetNotificationAttributesResponse> for Vec<u8>` */
  function EncodeNotificationResponse(r: GetNotificationAttributesResponse): (out: bytes)
    ensures |out| >= 5
    ensures Command.TryFromByte(out[0]) == Some(r.commandId)
    ensures U32FromLe(out[1], out[2], out[3], out[4]) == r.notificationUid
    ensures out[5..] == Attributes.EncodeList(r.attributeList)
  {
    Command.RoundTrip(r.commandId);
    [Command.ToByte(r.commandId)] + U32ToLe(r.notificationUid) + Attributes.EncodeList(r.attributeList)
  }

  /**
    `GetNotificationAttributesResponse::parse`: `le_u8`, `le_u32`, then
    `many0(Attribute::parse)`, and only then `CommandID::try_from(..).unwrap()`.
    The list stops at the first attribute that is a recoverable `Error`, and
    the bytes from there on are returned unconsumed: the input need not be
    used up. A success re-encodes to exactly the bytes it consumed.
   */
  function ParseNotificationResponse(input: bytes): (r: ParseResult<GetNotificationAttributesResponse>)
    ensures !r.Failure?
    ensures r.Ok? ==> Attributes.AllWellFormed(r.value.attributeList)
    ensures r.Ok? ==> EncodeNotificationResponse(r.value) + r.rest == input
    ensures r.Ok? ==> Attributes.Parse(r.rest).Error?
  {
    var p :- LeU8(input);
    var (i, commandId) := p;
    var q :- LeU32(i);
    var (i', notificationUid) := q;
    var r := NotificationResponseBody(commandId, notificationUid, i');
    assert r.Ok? ==> EncodeNotificationResponse(r.value) + r.rest == input by {
      if r.Ok? {
        JoinNotificationResponse(input, r.value, r.rest);
      }
    }
    r
  }

  /**
    A short input is an `Error` at the point where a fixed-width field ran
    out; once the header is there, an unknown command byte is a panic.
   */
  lemma ParseNotificationResponseErrors(input: bytes)
    ensures ParseNotificationResponse(input).Error? <==> |input| < 5
    ensures |input| == 0 ==> ParseNotificationResponse(input) == Error(input)
    ensures 0 < |input| < 5 ==> ParseNotificationResponse(input) == Error(input[1..])
    ensures |input| >= 5 && input[0] > 2 ==> ParseNotificationResponse(input).Panic?
  {
  }

  /** A header and an attribute list that match the input's bytes re-encode to the input. */
  lemma JoinNotificationResponse(input: bytes, r: GetNotificationAttributesResponse, rest: bytes)
    requires |input| >= 5 && Command.ToByte(r.commandId) == input[0]
    requires r.notificationUid == U32FromLe(input[1], input[2], input[3], input[4])
    requires Attributes.EncodeList(r.attributeList) + rest == input[5..]
    ensures EncodeNotificationResponse(r) + rest == input
  {
    U32LeInverse(input[1], input[2], input[3], input[4]);
    assert input == [input[0]] + input[1..5] + input[5..];
  }

  /** The part of the parse after the five header bytes: the attribute list, then the command. */
  function NotificationResponseBody(commandId: uint8, notificationUid: uint32, body: bytes)
    : (r: ParseResult<GetNotificationAttributesResponse>)
    ensures r.Ok? || r.Panic?
    ensures commandId > 2 ==> r.Panic?
    ensures r.Panic? <==> commandId > 2 || Attributes.ParseList(body).Panic?
    ensures r.Ok? ==> Command.ToByte(r.value.commandId) == commandId
    ensures r.Ok? ==> r.value.notificationUid == notificationUid
    ensures r.Ok? ==> Attributes.AllWellFormed(r.value.attributeList)
    ensures r.Ok? ==> Attributes.EncodeList(r.value.attributeList) + r.rest == body
    ensures r.Ok? ==> Attributes.Parse(r.rest).Error?
  {
    Attributes.ParseListExact(body);
    var m :- Attributes.ParseList(body);
    var (rest, attributeList) := m;
    match Command.TryFromByte(commandId)
    case None => Panic
    case Some(c) => Ok(rest, GetNotificationAttributesResponse(c, notificationUid, attributeList))
  }

  /**
    A response whose attributes are well formed parses back from its encoding;
    what follows is left unconsumed as long as it does not start an attribute.
   */
  lemma ParseEncodeNotificationResponse(r: GetNotificationAttributesResponse, rest: bytes)
    requires Attributes.AllWellFormed(r.attributeList)
    requires Attributes.Parse(rest).Error?
    ensures ParseNotificationResponse(EncodeNotificationResponse(r) + rest) == Ok(rest, r)
  {
    var input := EncodeNotificationResponse(r) + rest;
    var tail := Attributes.EncodeList(r.attributeList) + rest;
    assert input[5..] == tail;
    Attributes.ParseListEncoded(r.attributeList, rest);
    Command.RoundTrip(r.commandId);
    assert NotificationResponseBody(input[0], r.notificationUid, tail) == Ok(rest, r);
    assert LeU32(input[1..]) == Ok(tail, r.notificationUid);
  }

  /** The whole encoding is consumed: `parse(encode(r)) == Ok([], r)`. */
  lemma NotificationResponseRoundTrip(r: GetNotificationAttributesResponse)
    requires Attributes.AllWellFormed(r.attributeList)
    ensures ParseNotificationResponse(EncodeNotificationResponse(r)) == Ok([], r)
  {
    ParseEncodeNotificationResponse(r, []);
    assert EncodeNotificationResponse(r) + [] == EncodeNotificationResponse(r);
  }

  /**
    A GetNotificationAttributes response for uid `u32::MAX` carrying one
    AppIdentifier attribute `s`: the header `[0, 255, 255, 255, 255]`, the
    attribute's id and length, then `s`, and it parses back with nothing left over.
   */
  lemma SingleAppIdentifierResponse(s: Str)
    requires |s| <= U16_MAX
    ensures var r := GetNotificationAttributesResponse(
              Command.GetNotificationAttributes, U32_MAX,
              [Attributes.Attribute(Attributes.NotificationAttribute.AppIdentifier, |s| as uint16, Some(s))]);
            EncodeNotificationResponse(r) == [0, 255, 255, 255, 255, 0] + U16ToLe(|s| as uint16) + s &&
            ParseNotificationResponse(EncodeNotificationResponse(r)) == Ok([], r)
  {
    var a := Attributes.Attribute(Attributes.NotificationAttribute.AppIdentifier, |s| as uint16, Some(s));
    var r := GetNotificationAttributesResponse(Command.GetNotificationAttributes, U32_MAX, [a]);
    SingletonList(a);
    U32MaxLe();
    SingleAppIdentifierBytes(EncodeNotificationResponse(r), U32ToLe(U32_MAX), Attributes.Encode(a), U16ToLe(|s| as uint16), s);
    NotificationResponseRoundTrip(r);
  }

  /** A one-element list encodes as its element. */
  lemma SingletonList(a: Attribute)
    ensures Attributes.EncodeList([a]) == Attributes.Encode(a)
  {
    assert [a][1..] == [];
  }

  /** The bytes of a GetNotificationAttributes / `u32::MAX` response with one AppIdentifier. */
  lemma SingleAppIdentifierBytes(encoded: bytes, uid: bytes, attribute: bytes, length: bytes, s: bytes)
    requires encoded == [0] + uid + attribute
    requires uid == [255, 255, 255, 255]
    requires attribute == [0] + length + s
    ensures encoded == [0, 255, 255, 255, 255, 0] + length + s
  {
    assert [0] + [255, 255, 255, 255] + [0] == [0, 255, 255, 255, 255, 0];
  }

  /** "com.rust.test" in ASCII. */
  const COM_RUST_TEST: bytes := [99, 111, 109, 46, 114, 117, 115, 116, 46, 116, 101, 115, 116]

  /**
    The "com.rust.test" example: `[0, 255, 255, 255, 255, 0, 13, 0, ..]` is
    GetNotificationAttributes, uid `u32::MAX`, one AppIdentifier attribute of
    length 13, with nothing left over; and encoding that value gives the bytes back.
   */
  lemma ComRustTestExample(s: Str, wire: bytes)
    requires s == COM_RUST_TEST
    requires wire == [0, 255, 255, 255, 255, 0, 13, 0] + s
    ensures var r := GetNotificationAttributesResponse(
              Command.GetNotificationAttributes, U32_MAX,
              [Attributes.Attribute(Attributes.NotificationAttribute.AppIdentifier, 13, Some(s))]);
            EncodeNotificationResponse(r) == wire && ParseNotificationResponse(wire) == Ok([], r)
  {
    var r := GetNotificationAttributesResponse(
              Command.GetNotificationAttributes, U32_MAX,
              [Attributes.Attribute(Attributes.NotificationAttribute.AppIdentifier, |s| as uint16, Some(s))]);
    SingleAppIdentifierResponse(s);
    ComRustTestBytes(s, EncodeNotificationResponse(r), wire, U16ToLe(|s| as uint16));
  }

  /** The header bytes of the example, length field included. */
  lemma ComRustTestBytes(s: bytes, encoded: bytes, wire: bytes, length: bytes)
    requires encoded == [0, 255, 255, 255, 255, 0] + length + s
    requires length == U16ToLe(13)
    requires wire == [0, 255, 255, 255, 255, 0, 13, 0] + s
    ensures encoded == wire
  {
    assert length == [13, 0];
    assert [0, 255, 255, 255, 255, 0] + [13, 0] == [0, 255, 255, 255, 255, 0, 13, 0];
  }

  datatype GetAppAttributesResponse = GetAppAttributesResponse(
    commandId: Command.CommandId,
    appIdentifier: Str,
    attributeList: seq<Attribute>)

  /**
    The identifier as `From<GetAppAttributesResponse>` writes it: a 0 is pushed
    unless the last byte already is 0, and `last().unwrap()` panics on an empty one.
   */
  function TerminateAsWritten(app: bytes): (r: Outcome<bytes>)
    ensures r.Panicked? <==> |app| == 0
    ensures r.Returned? ==> r.value == NulTerminated(app)
  {
    if |app| == 0 then Panicked
    else if app[|app| - 1] != 0 then Returned(app + [0])
    else Returned(app)
  }

  /** `From<GetAppAttributesResponse> for Vec<u8>` as written: it panics on an empty identifier. */
  function EncodeAppResponse(r: GetAppAttributesResponse): (out: Outcome<bytes>)
    ensures out.Panicked? <==> |r.appIdentifier| == 0
    ensures out.Returned? ==>
              out.value == [Command.ToByte(r.commandId)] + NulTerminated(r.appIdentifier)
                           + Attributes.EncodeList(r.attributeList)
  {
    match TerminateAsWritten(r.appIdentifier)
    case Panicked => Panicked
    case Returned(app) =>
      Returned([Command.ToByte(r.commandId)] + app + Attributes.EncodeList(r.attributeList))
  }

  /** An empty app identifier makes the encoder panic instead of sending `[cmd, 0]`. */
  lemma EncodeEmptyIdentifierPanics(c: Command.CommandId, list: seq<Attribute>)
    ensures EncodeAppResponse(GetAppAttributesResponse(c, [], list)) == Panicked
  {
  }

  /**
    `GetAppAttributesResponse::parse` as written: `le_u8`, then
    `take_until(" ")`, which stops BEFORE the first space (0x20) and leaves it
    in the input, then `many0(Attribute::parse)` and the two `unwrap`s.
   */
  function ParseAppResponse(input: bytes): (r: ParseResult<GetAppAttributesResponse>)
    ensures r.Error? || r.Panic?
  {
    var p :- LeU8(input);
    var (i, commandId) := p;
    var q :- TakeUntil([0x20], i);
    var (i', appIdentifier) := q;
    TakeUntilByte(0x20, i);
    AppResponseBody(commandId, appIdentifier, i')
  }

  /**
    The part of the parse after the identifier: `many0(Attribute::parse)`,
    then `CommandID::try_from(..).unwrap()` and `String::from_utf8(..).unwrap()`.
   */
  function AppResponseBody(commandId: uint8, appIdentifier: bytes, body: bytes)
    : (r: ParseResult<GetAppAttributesResponse>)
    ensures r.Ok? || r.Panic?
    ensures |body| > 0 && body[0] > 7 ==> r.Panic?
    ensures r.Ok? ==> Command.ToByte(r.value.commandId) == commandId
    ensures r.Ok? ==> r.value.appIdentifier == appIdentifier
    ensures r.Ok? ==> Attributes.AllWellFormed(r.value.attributeList)
    ensures r.Ok? ==> Attributes.EncodeList(r.value.attributeList) + r.rest == body
    ensures r.Ok? ==> Attributes.Parse(r.rest).Error?
  {
    Attributes.ParseListExact(body);
    var m :- Attributes.ParseList(body);
    var (rest, attributeList) := m;
    match Command.TryFromByte(commandId)
    case None => Panic
    case Some(c) =>
      if ValidUtf8(appIdentifier) then
        Ok(rest, GetAppAttributesResponse(c, appIdentifier, attributeList))
      else
        Panic
  }

  /**
    The parser as written never succeeds: without a space after the command
    byte `take_until` gives an `Error`; with one, the space is left in front
    of the attribute list, where it is read as identifier 0x20 and panics.
   */
  lemma ParseAppResponseNeverOk(input: bytes)
    ensures ParseAppResponse(input).Error? <==> |input| == 0 || 0x20 !in input[1..]
    ensures ParseAppResponse(input).Panic? <==> |input| > 0 && 0x20 in input[1..]
  {
    if |input| > 0 {
      var i := input[1..];
      OneByteTag(0x20, i);
      var q := TakeUntil([0x20], i);
      if q.Ok? {
        TagAtFront(0x20, q.rest);
        assert ParseAppResponse(input) == AppResponseBody(input[0], q.value, q.rest);
      }
    }
  }

  /**
    No response survives an encode / parse round trip: the encoder's output
    is either a panic already or bytes the parser refuses.
   */
  lemma AppResponseNeverRoundTrips(r: GetAppAttributesResponse)
    ensures EncodeAppResponse(r).Returned? ==> !ParseAppResponse(EncodeAppResponse(r).value).Ok?
  {
    if EncodeAppResponse(r).Returned? {
      ParseAppResponseNeverOk(EncodeAppResponse(r).value);
    }
  }

  /** A concrete case: "Test" with no attributes encodes to `[1, 'T', 'e', 's', 't', 0]`, which parses to an `Error`. */
  lemma AppResponseExample()
    ensures ValidUtf8([84, 101, 115, 116])
    ensures var r := GetAppAttributesResponse(Command.GetAppAttributes, [84, 101, 115, 116], []);
            EncodeAppResponse(r) == Returned([1, 84, 101, 115, 116, 0]) &&
            ParseAppResponse([1, 84, 101, 115, 116, 0]).Error?
  {
    AsciiIsValid([84, 101, 115, 116]);
    assert NulTerminated([84, 101, 115, 116]) == [84, 101, 115, 116, 0];
    assert Attributes.EncodeList([]) == [];
    assert Command.ToByte(Command.GetAppAttributes) == 1;
    var r := GetAppAttributesResponse(Command.GetAppAttributes, [84, 101, 115, 116], []);
    assert TerminateAsWritten(r.appIdentifier) == Returned([84, 101, 115, 116, 0]);
    assert EncodeAppResponse(r) == Returned([1] + [84, 101, 115, 116, 0] + []);
    assert [1] + [84, 101, 115, 116, 0] + [] == [1, 84, 101, 115, 116, 0];
    assert EncodeAppResponse(r) == Returned([1, 84, 101, 115, 116, 0]);
    var wire: bytes := [1, 84, 101, 115, 116, 0];
    assert 0x20 !in wire[1..];
    ParseAppResponseNeverOk(wire);
  }

  /** The encoder with the evident intent: an empty identifier is terminated too. */
  function EncodeAppResponseCorrected(r: GetAppAttributesResponse): (out: bytes)
    ensures |out| >= 2
    ensures Command.TryFromByte(out[0]) == Some(r.commandId)
  {
    Command.RoundTrip(r.commandId);
    [Command.ToByte(r.commandId)] + NulTerminated(r.appIdentifier) + Attributes.EncodeList(r.attributeList)
  }

  /** An identifier without a 0 byte gets exactly one terminator. */
  lemma EncodeAppResponseCorrectedShape(r: GetAppAttributesResponse)
    requires 0 !in r.appIdentifier
    ensures EncodeAppResponseCorrected(r) ==
              [Command.ToByte(r.commandId)] + (r.appIdentifier + [0]) + Attributes.EncodeList(r.attributeList)
  {
    var app := r.appIdentifier;
    if |app| > 0 {
      assert app[|app| - 1] in app;
    }
  }

  /**
    The parser with the evident intent: the identifier runs up to the first 0
    byte, and that terminator is consumed before the attribute list.
   */
  function ParseAppResponseCorrected(input: bytes): (r: ParseResult<GetAppAttributesResponse>)
    ensures !r.Failure?
    ensures r.Ok? ==> |input| > 0 && Command.ToByte(r.value.commandId) == input[0]
    ensures r.Ok? ==> 0 !in r.value.appIdentifier
  {
    var p :- LeU8(input);
    var (i, commandId) := p;
    var q :- TakeUntil([0], i);
    var (i', appIdentifier) := q;
    TakeUntilByte(0, i);
    // `take_until` leaves the terminator at the front; it is skipped here.
    AppResponseBody(commandId, appIdentifier, i'[1..])
  }

  /**
    A success of the corrected parser has an identifier without a 0 byte and
    well-formed attributes, and re-encodes to exactly the bytes it consumed.
   */
  lemma ParseAppResponseCorrectedSound(input: bytes)
    ensures var r := ParseAppResponseCorrected(input);
            r.Ok? ==> 0 !in r.value.appIdentifier && Attributes.AllWellFormed(r.value.attributeList) &&
                      EncodeAppResponseCorrected(r.value) + r.rest == input
  {
    var r := ParseAppResponseCorrected(input);
    if r.Ok? {
      var q := TakeUntil([0], input[1..]);
      TakeUntilByte(0, input[1..]);
      ParseAppResponseCorrectedSteps(input);
      var v := r.value;
      EncodeAppResponseCorrectedShape(v);
      AppResponseRejoined(input, input[0], q.value + [0], Attributes.EncodeList(v.attributeList), r.rest,
           q.rest[1..], EncodeAppResponseCorrected(v));
    }
  }

  /** Reassembling an input from its command byte, its identifier, and a body that is a list then a rest. */
  lemma AppResponseRejoined(input: bytes, c: uint8, app: bytes, list: bytes, rest: bytes, body: bytes, head: bytes)
    requires |input| > 0 && input[0] == c && input[1..] == app + body
    requires list + rest == body
    requires head == [c] + app + list
    ensures head + rest == input
  {
    assert input == [c] + input[1..];
  }

  /** The bytes after the command byte of `head + rest`, where `head` is a command byte, an identifier and a list. */
  lemma AppResponseAfterCommand(c: uint8, app: bytes, list: bytes, head: bytes, rest: bytes)
    requires head == [c] + app + list
    ensures (head + rest)[0] == c && (head + rest)[1..] == app + (list + rest)
  {
    assert head + rest == [c] + (app + (list + rest));
  }

  /**
    With the corrections, a response whose identifier has no 0 byte (a
    terminator is never part of the value) and whose attributes are well
    formed parses back from its encoding, the empty identifier included.
   */
  lemma AppResponseCorrectedRoundTrip(r: GetAppAttributesResponse, rest: bytes)
    requires 0 !in r.appIdentifier
    requires Attributes.AllWellFormed(r.attributeList)
    requires Attributes.Parse(rest).Error?
    ensures ParseAppResponseCorrected(EncodeAppResponseCorrected(r) + rest) == Ok(rest, r)
  {
    var app := r.appIdentifier;
    var list := Attributes.EncodeList(r.attributeList) + rest;
    var input := EncodeAppResponseCorrected(r) + rest;
    assert input[0] == Command.ToByte(r.commandId) && input[1..] == app + [0] + list by {
      EncodeAppResponseCorrectedShape(r);
      AppResponseAfterCommand(Command.ToByte(r.commandId), app + [0], Attributes.EncodeList(r.attributeList),
            EncodeAppResponseCorrected(r), rest);
    }
    assert TakeUntil([0], input[1..]) == Ok([0] + list, app) by {
      TakeUntilByteOf(0, app, list);
    }
    assert AppResponseBody(input[0], app, list) == Ok(rest, r) by {
      Attributes.ParseListEncoded(r.attributeList, rest);
      Command.RoundTrip(r.commandId);
    }
    assert ([0] + list)[1..] == list;
    ParseAppResponseCorrectedSteps(input);
  }

  /** The corrected parse, stage by stage, on an input whose identifier is terminated. */
  lemma ParseAppResponseCorrectedSteps(input: bytes)
    requires |input| > 0 && TakeUntil([0], input[1..]).Ok?
    ensures var q := TakeUntil([0], input[1..]);
            |q.rest| > 0 &&
            ParseAppResponseCorrected(input) == AppResponseBody(input[0], q.value, q.rest[1..])
  {
    TakeUntilByte(0, input[1..]);
  }
}

=== FILE: event.dfy ===
/**
  `EventID` and `EventFlag` of the Notification Source record, with their byte
  conversions. `EventFlag` is a single-valued enumeration whose `try_from`
  decodes a byte by the position of its lowest set bit (`u8::trailing_zeros`),
  not a bit-set decoder.
 */
module Event {
  import opened Rust

  datatype EventId = NotificationAdded | NotificationModified | NotificationRemoved

  /** `From<EventID> for u8` */
  function EventIdToByte(e: EventId): (b: uint8)
    ensures b <= 2
  {
    match e
    case NotificationAdded => 0
    case NotificationModified => 1
    case NotificationRemoved => 2
  }

  /** `TryFrom<u8> for EventID`: accepts exactly the three bytes `EventIdToByte` produces. */
  function EventIdTryFromByte(b: uint8): (r: Option<EventId>)
    ensures r.Some? <==> b <= 2
    ensures r.Some? ==> EventIdToByte(r.value) == b
  {
    match b
    case 0 => Some(NotificationAdded)
    case 1 => Some(NotificationModified)
    case 2 => Some(NotificationRemoved)
    case _ => None
  }

  lemma EventIdRoundTrip(e: EventId)
    ensures EventIdTryFromByte(EventIdToByte(e)) == Some(e)
  {
  }

  /** Bit `i` of `b`, counting from the least significant bit. */
  function Bit(b: nat, i: nat): (r: nat)
    ensures r <= 1
  {
    if i == 0 then b % 2 else Bit(b / 2, i - 1)
  }

  function Pow2(k: nat): (r: nat)
    ensures r >= 1
  {
    if k == 0 then 1 else 2 * Pow2(k - 1)
  }

  /** A power of two has exactly one set bit. */
  lemma {:induction false} BitOfPow2(k: nat, i: nat)
    ensures Bit(Pow2(k), i) == if i == k then 1 else 0
    decreases k
  {
    if k == 0 {
      if i > 0 {
        BitOfZero(i - 1);
      }
    } else if i > 0 {
      assert Pow2(k) / 2 == Pow2(k - 1);
      BitOfPow2(k - 1, i - 1);
    }
  }

  lemma {:induction false} BitOfZero(i: nat)
    ensures Bit(0, i) == 0
  {
    if i > 0 {
      BitOfZero(i - 1);
    }
  }

  /**
    The number of zero bits below the lowest set bit of `b`, looking at its
    `width` low-order bits only; `width` when all of them are zero. With width 8
    this is `u8::trailing_zeros`, which is 8 for the zero byte.
   */
  function TrailingZeros(b: nat, width: nat): (n: nat)
    ensures n <= width
    ensures forall i :: 0 <= i < n ==> Bit(b, i) == 0
    ensures n < width ==> Bit(b, n) == 1
    decreases width
  {
    if width == 0 || b % 2 == 1 then 0
    else 1 + TrailingZeros(b / 2, width - 1)
  }

  /** Bit `k` is the lowest set bit of `b`. */
  predicate IsLowestSetBit(b: nat, k: nat)
  {
    Bit(b, k) == 1 && forall i :: 0 <= i < k ==> Bit(b, i) == 0
  }

  datatype EventFlag = Silent | Important | PreExisting | PositiveAction | NegativeAction

  /** The bit each flag stands for, in declaration order. */
  function FlagBitIndex(f: EventFlag): (i: nat)
    ensures i < 5
  {
    match f
    case Silent => 0
    case Important => 1
    case PreExisting => 2
    case PositiveAction => 3
    case NegativeAction => 4
  }

  lemma FlagBitIndexInjective(f: EventFlag, g: EventFlag)
    ensures FlagBitIndex(f) == FlagBitIndex(g) ==> f == g
  {
  }

  /** `From<EventFlag> for u8`: each flag is the single bit `0x01 .. 0x10`. */
  function EventFlagToByte(f: EventFlag): (b: uint8)
    ensures b == Pow2(FlagBitIndex(f))
  {
    match f
    case Silent => 0x01
    case Important => 0x02
    case PreExisting => 0x04
    case PositiveAction => 0x08
    case NegativeAction => 0x10
  }

  /** The byte of a flag has its own bit set and no other. */
  lemma FlagByteIsSingleBit(f: EventFlag, i: nat)
    ensures Bit(EventFlagToByte(f), i) == if i == FlagBitIndex(f) then 1 else 0
  {
    BitOfPow2(FlagBitIndex(f), i);
  }

  /**
    `TryFrom<u8> for EventFlag`: the flag whose bit is the lowest set bit of `b`,
    provided that bit is one of the five low bits; otherwise an error. Higher
    bits are ignored, so several bytes decode to the same flag.
   */
  function EventFlagTryFromByte(b: uint8): (r: Option<EventFlag>)
    ensures r.Some? <==> exists i :: 0 <= i < 5 && Bit(b, i) == 1
    ensures r.Some? ==> IsLowestSetBit(b, FlagBitIndex(r.value))
  {
    var n := TrailingZeros(b, 8);
    assert n < 5 ==> Bit(b, n) == 1;
    match n
    case 0 => Some(Silent)
    case 1 => Some(Important)
    case 2 => Some(PreExisting)
    case 3 => Some(PositiveAction)
    case 4 => Some(NegativeAction)
    case _ => None
  }

  /** The flag `try_from` returns is exactly the one whose bit is the lowest set bit of `b`. */
  lemma FlagTryFromIsLowestBit(b: uint8, f: EventFlag)
    ensures EventFlagTryFromByte(b) == Some(f) <==> IsLowestSetBit(b, FlagBitIndex(f))
  {
    var r := EventFlagTryFromByte(b);
    var k := FlagBitIndex(f);
    if IsLowestSetBit(b, k) {
      assert 0 <= k < 5 && Bit(b, k) == 1;
      FlagBitIndexInjective(f, r.value);
    }
  }

  lemma EventFlagRoundTrip(f: EventFlag)
    ensures EventFlagTryFromByte(EventFlagToByte(f)) == Some(f)
  {
    FlagByteIsSingleBit(f, FlagBitIndex(f));
    forall i | 0 <= i < FlagBitIndex(f)
      ensures Bit(EventFlagToByte(f), i) == 0
    {
      FlagByteIsSingleBit(f, i);
    }
    FlagTryFromIsLowestBit(EventFlagToByte(f), f);
  }

  /** 0 and 0x20 are refused, 0x03 is `Silent`, and re-encoding it gives 0x01, not 0x03. */
  lemma EventFlagExamples()
    ensures EventFlagTryFromByte(0x00) == None
    ensures EventFlagTryFromByte(0x20) == None
    ensures EventFlagTryFromByte(0x03) == Some(Silent)
    ensures EventFlagToByte(EventFlagTryFromByte(0x03).value) != 0x03
    ensures EventFlagTryFromByte(0x02) == Some(Important)
  {
  }
}

=== FILE: nom.dfy ===
/**
  The complete-input nom combinators the codec uses (`le_u8`, `le_u16`,
  `le_u32`, `count`, `many0`, `take_until`), over a result that also records
  a Rust panic, so that a parser's `unwrap` calls have an outcome of their own.
 */
module Nom {
  import opened Rust

  /**
    `IResult<&[u8], T>` extended with panics:
    - `Ok(rest, value)`: the parser succeeded and `rest` is the unconsumed input;
    - `Error(at)`: `nom::Err::Error`, recoverable (`many0` stops on it);
    - `Failure(at)`: `nom::Err::Failure`, fatal (`many0` propagates it);
    - `Panic`: the parser panicked.
    `at` is the input position the error reports; its `ErrorKind` is not modelled.
    The `:-` operator plays the part of Rust's `?`.
   */
  datatype ParseResult<+T> =
    | Ok(rest: bytes, value: T)
    | Error(at: bytes)
    | Failure(at: bytes)
    | Panic
  {
    predicate IsFailure()
    {
      !Ok?
    }

    function PropagateFailure<U>(): ParseResult<U>
      requires !Ok?
    {
      match this
      case Error(at) => Error(at)
      case Failure(at) => Failure(at)
      case Panic => Panic
    }

    function Extract(): (bytes, T)
      requires Ok?
    {
      (rest, value)
    }
  }

  /** `v` in front of the values of a successful `t`; any other outcome of `t` unchanged. */
  function Prepend<T>(v: T, t: ParseResult<seq<T>>): (r: ParseResult<seq<T>>)
    ensures r.Ok? <==> t.Ok?
    ensures r.Ok? ==> r.rest == t.rest && |r.value| == |t.value| + 1
    ensures r.Ok? ==> r.value[0] == v && r.value[1..] == t.value
    ensures !r.Ok? ==> r == t.PropagateFailure()
  {
    match t
    case Ok(rest, vs) => Ok(rest, [v] + vs)
    case Error(at) => Error(at)
    case Failure(at) => Failure(at)
    case Panic => Panic
  }

  /** `le_u8`: one byte, or `Error` at the empty input. */
  function LeU8(input: bytes): (r: ParseResult<uint8>)
    ensures r.Ok? || r.Error?
    ensures r.Error? <==> |input| == 0
    ensures r.Error? ==> r.at == input
    ensures r.Ok? ==> [r.value] + r.rest == input
  {
    if |input| < 1 then Error(input)
    else
      assert [input[0]] + input[1..] == input;
      Ok(input[1..], input[0])
  }

  /** `le_u16`: two bytes, least significant first, or `Error` where fewer remain. */
  function LeU16(input: bytes): (r: ParseResult<uint16>)
    ensures r.Ok? || r.Error?
    ensures r.Error? <==> |input| < 2
    ensures r.Error? ==> r.at == input
    ensures r.Ok? ==> U16ToLe(r.value) + r.rest == input
  {
    if |input| < 2 then Error(input)
    else
      U16LeInverse(input[0], input[1]);
      assert [input[0], input[1]] + input[2..] == input;
      Ok(input[2..], U16FromLe(input[0], input[1]))
  }

  /** `le_u32`: four bytes, least significant first, or `Error` where fewer remain. */
  function LeU32(input: bytes): (r: ParseResult<uint32>)
    ensures r.Ok? || r.Error?
    ensures r.Error? <==> |input| < 4
    ensures r.Error? ==> r.at == input
    ensures r.Ok? ==> U32ToLe(r.value) + r.rest == input
  {
    if |input| < 4 then Error(input)
    else
      U32LeInverse(input[0], input[1], input[2], input[3]);
      assert [input[0], input[1], input[2], input[3]] + input[4..] == input;
      Ok(input[4..], U32FromLe(input[0], input[1], input[2], input[3]))
  }

  /**
    `count(p, n)`: apply `p` exactly `n` times. With nom's default error type an
    inner `Error` is passed on unchanged (its position is the inner one).
   */
  function Count<T>(p: bytes -> ParseResult<T>, n: nat, input: bytes): (r: ParseResult<seq<T>>)
    ensures r.Ok? ==> |r.value| == n
    decreases n
  {
    if n == 0 then Ok(input, [])
    else
      match p(input)
      case Error(at) => Error(at)
      case Failure(at) => Failure(at)
      case Panic => Panic
      case Ok(rest, v) => Prepend(v, Count(p, n - 1, rest))
  }

  /**
    `count(le_u8, n)` takes the next `n` bytes; when fewer remain, `le_u8`
    fails at the end of the input, and that is where the `Error` points.
   */
  lemma {:induction false} CountLeU8(n: nat, input: bytes)
    ensures Count(LeU8, n, input) ==
            if n <= |input| then Ok(input[n..], input[..n]) else Error([])
    decreases n
  {
    if n > 0 {
      if |input| > 0 {
        CountLeU8(n - 1, input[1..]);
        if n <= |input| {
          assert [input[0]] + input[1..][..n - 1] == input[..n];
          assert input[1..][n - 1..] == input[n..];
        }
      }
    }
  }

  /**
    `many0(p)`: apply `p` until it returns a recoverable `Error`, collecting the
    results in order; `Failure` and `Panic` are passed on. nom refuses a
    success that consumed nothing (it would loop forever) with an `Error`;
    since a nom parser's remainder is a suffix of its input, "consumed nothing"
    is written `|rest| >= |input|`.
   */
  function Many0<T>(p: bytes -> ParseResult<T>, input: bytes): (r: ParseResult<seq<T>>)
    ensures r.Ok? ==> p(r.rest).Error? && |r.rest| <= |input|
    ensures r.Error? ==> p(input).Ok?
    decreases |input|
  {
    match p(input)
    case Error(_) => Ok(input, [])
    case Failure(at) => Failure(at)
    case Panic => Panic
    case Ok(rest, v) =>
      if |rest| >= |input| then Error(input)
      else Prepend(v, Many0(p, rest))
  }

  /** Every success of `p` consumes at least one byte. */
  ghost predicate Consumes<T>(p: bytes -> ParseResult<T>)
  {
    forall s: bytes :: p(s).Ok? ==> |p(s).rest| < |s|
  }

  /** Every success of `p` leaves a suffix of its input, as every nom parser on a slice does. */
  ghost predicate LeavesSuffix<T>(p: bytes -> ParseResult<T>)
  {
    forall s: bytes :: p(s).Ok? ==> IsSuffix(p(s).rest, s)
  }

  predicate IsSuffix(rest: bytes, s: bytes)
  {
    |rest| <= |s| && rest == s[|s| - |rest|..]
  }

  /**
    `many0` adds no error of its own beyond the zero-progress guard: it errs
    only if some success of `p` consumed nothing, it fails only if `p` can
    fail, and it panics only if `p` can panic.
   */
  lemma {:induction false} Many0Outcome<T>(p: bytes -> ParseResult<T>, input: bytes)
    ensures Consumes(p) ==> !Many0(p, input).Error?
    ensures (forall s: bytes :: !p(s).Failure?) ==> !Many0(p, input).Failure?
    ensures (forall s: bytes :: !p(s).Panic?) ==> !Many0(p, input).Panic?
    decreases |input|
  {
    match p(input)
    case Ok(rest, v) =>
      if |rest| < |input| {
        Many0Outcome(p, rest);
      }
    case _ =>
  }

  /** When `p` leaves suffixes, so does `many0(p)`: a success stops at a suffix of the input. */
  lemma {:induction false} Many0LeavesSuffix<T>(p: bytes -> ParseResult<T>, input: bytes)
    requires LeavesSuffix(p)
    ensures Many0(p, input).Ok? ==> IsSuffix(Many0(p, input).rest, input)
    decreases |input|
  {
    match p(input)
    case Ok(rest, v) =>
      if |rest| < |input| {
        Many0LeavesSuffix(p, rest);
        var t := Many0(p, rest);
        if t.Ok? {
          assert IsSuffix(rest, input);
          SuffixTransitive(t.rest, rest, input);
        }
      }
    case _ =>
  }

  lemma SuffixTransitive(a: bytes, b: bytes, c: bytes)
    requires IsSuffix(a, b) && IsSuffix(b, c)
    ensures IsSuffix(a, c)
  {
    assert c[|c| - |a|..] == c[|c| - |b|..][|b| - |a|..];
  }

  /** `tag` occurs in `s` at index `k`. */
  predicate OccursAt(tag: bytes, s: bytes, k: nat)
  {
    k + |tag| <= |s| && s[k..k + |tag|] == tag
  }

  /** `tag` occurs nowhere in `s` at or after index `from`. */
  ghost predicate AbsentFrom(tag: bytes, s: bytes, from: nat)
  {
    forall k :: from <= k ==> !OccursAt(tag, s, k)
  }

  /** `tag` does not start at any index of `s` below `n`. */
  ghost predicate AbsentBefore(tag: bytes, s: bytes, n: nat)
  {
    forall k :: 0 <= k < n ==> !OccursAt(tag, s, k)
  }

  /** The first index at or after `from` where `tag` occurs in `s`. */
  function FindTag(tag: bytes, s: bytes, from: nat): (r: Option<nat>)
    ensures r.Some? ==> from <= r.value && OccursAt(tag, s, r.value)
    ensures r.Some? ==> forall k :: from <= k < r.value ==> !OccursAt(tag, s, k)
    ensures r.None? ==> AbsentFrom(tag, s, from)
    decreases |s| - from
  {
    if from + |tag| > |s| then None
    else if s[from..from + |tag|] == tag then Some(from)
    else FindTag(tag, s, from + 1)
  }

  /**
    `take_until(tag)`: the bytes before the first occurrence of `tag`, leaving
    the tag itself at the front of the remainder; `Error` when `tag` does not occur.
   */
  function TakeUntil(tag: bytes, input: bytes): (r: ParseResult<bytes>)
    ensures r.Error? <==> AbsentFrom(tag, input, 0)
    ensures r.Ok? ==> r.value + r.rest == input && OccursAt(tag, r.rest, 0)
    ensures r.Ok? ==> AbsentBefore(tag, input, |r.value|)
  {
    match FindTag(tag, input, 0)
    case None => Error(input)
    case Some(k) =>
      assert input[..k] + input[k..] == input;
      Ok(input[k..], input[..k])
  }

  /** A one-byte tag occurs in `s` exactly when that byte is one of its elements. */
  lemma OneByteTag(b: uint8, s: bytes)
    ensures AbsentFrom([b], s, 0) <==> b !in s
  {
    if b in s {
      var k :| 0 <= k < |s| && s[k] == b;
      assert OccursAt([b], s, k);
    } else {
      forall k: nat
        ensures !OccursAt([b], s, k)
      {
        if k < |s| {
          assert s[k..k + 1] == [s[k]];
        }
      }
    }
  }

  /**
    `take_until` on a one-byte tag: the bytes taken never contain it, and the
    remainder is the tag followed by everything after its first occurrence.
   */
  lemma TakeUntilByte(b: uint8, input: bytes)
    ensures var r := TakeUntil([b], input);
            r.Ok? ==> b !in r.value && |r.rest| > 0 && r.rest[0] == b &&
                      input == r.value + [b] + r.rest[1..]
  {
    var r := TakeUntil([b], input);
    if r.Ok? {
      TagAtFront(b, r.rest);
      NoTagBefore(b, input, r.value);
      assert r.rest == [b] + r.rest[1..];
    }
  }

  /** A one-byte tag at index 0 is the first element. */
  lemma TagAtFront(b: uint8, s: bytes)
    requires OccursAt([b], s, 0)
    ensures |s| > 0 && s[0] == b
  {
    assert s[0..1] == [b];
  }

  /** A prefix before which a one-byte tag does not start does not contain it. */
  lemma NoTagBefore(b: uint8, s: bytes, prefix: bytes)
    requires |prefix| <= |s| && prefix == s[..|prefix|]
    requires AbsentBefore([b], s, |prefix|)
    ensures b !in prefix
  {
    forall k | 0 <= k < |prefix|
      ensures prefix[k] != b
    {
      assert !OccursAt([b], s, k);
      assert s[k..k + 1] == [s[k]];
    }
  }

  /** `take_until` stops at the first occurrence of a one-byte tag. */
  lemma TakeUntilByteOf(b: uint8, value: bytes, tail: bytes)
    requires b !in value
    ensures TakeUntil([b], value + [b] + tail) == Ok([b] + tail, value)
  {
    var input := value + [b] + tail;
    assert OccursAt([b], input, |value|);
    forall k | 0 <= k < |value|
      ensures !OccursAt([b], input, k)
    {
      assert input[k] == value[k];
    }
    assert input[..|value|] == value;
    assert input[|value|..] == [b] + tail;
  }
}

=== FILE: notification_attribute.dfy ===
/**
  `NotificationAttributeID` (src/attributes/notification.rs), declared again as
  `AttributeID` in src/attributes/attribute.rs with the same variants, values,
  `parse` and `is_sized`; modelled once.
 */
module NotificationAttribute {
  import opened Rust
  import opened Nom

  datatype NotificationAttributeId =
    | AppIdentifier | Title | Subtitle | Message | MessageSize | Date
    | PositiveActionLabel | NegativeActionLabel

  /** `From<NotificationAttributeID> for u8`: numbered 0 .. 7 in declaration order. */
  function ToByte(a: NotificationAttributeId): (b: uint8)
    ensures b <= 7
  {
    match a
    case AppIdentifier => 0
    case Title => 1
    case Subtitle => 2
    case Message => 3
    case MessageSize => 4
    case Date => 5
    case PositiveActionLabel => 6
    case NegativeActionLabel => 7
  }

  /** `TryFrom<u8> for NotificationAttributeID`: exactly the bytes 0 .. 7, each back to its identifier. */
  function TryFromByte(b: uint8): (r: Option<NotificationAttributeId>)
    ensures r.Some? <==> b <= 7
    ensures r.Some? ==> ToByte(r.value) == b
  {
    match b
    case 0 => Some(AppIdentifier)
    case 1 => Some(Title)
    case 2 => Some(Subtitle)
    case 3 => Some(Message)
    case 4 => Some(MessageSize)
    case 5 => Some(Date)
    case 6 => Some(PositiveActionLabel)
    case 7 => Some(NegativeActionLabel)
    case _ => None
  }

  lemma RoundTrip(a: NotificationAttributeId)
    ensures TryFromByte(ToByte(a)) == Some(a)
  {
  }

  /** Distinct identifiers have distinct bytes. */
  lemma ToByteInjective(a: NotificationAttributeId, b: NotificationAttributeId)
    ensures ToByte(a) == ToByte(b) ==> a == b
  {
    RoundTrip(a);
    RoundTrip(b);
  }

  /**
    `parse`: one byte, passed to `try_from(..).unwrap()`, so a byte above 7
    panics; the empty input is `le_u8`'s recoverable `Error`.
   */
  function Parse(input: bytes): (r: ParseResult<NotificationAttributeId>)
    ensures r.Error? <==> |input| == 0
    ensures r.Error? ==> r.at == input
    ensures r.Panic? <==> |input| > 0 && input[0] > 7
    ensures !r.Failure?
    ensures r.Ok? ==> r.rest == input[1..] && ToByte(r.value) == input[0]
  {
    var p :- LeU8(input);
    var (i, attributeId) := p;
    match TryFromByte(attributeId)
    case Some(a) => Ok(i, a)
    case None => Panic
  }

  /** `[0, 1]` is `AppIdentifier` followed by `[1]`; `[0, 255]` leaves one byte. */
  lemma ParseExamples()
    ensures Parse([0, 1]) == Ok([1], AppIdentifier)
    ensures Parse([ToByte(AppIdentifier), 255]) == Ok([255], AppIdentifier)
  {
  }

  /**
    `is_sized`: the identifiers a Get Notification Attributes request follows
    with a maximum length; they are exactly those numbered 1 .. 3.
   */
  predicate IsSized(a: NotificationAttributeId)
    ensures IsSized(a) <==> 1 <= ToByte(a) <= 3
  {
    match a
    case Title => true
    case Subtitle => true
    case Message => true
    case _ => false
  }
}

=== FILE: notification_source.dfy ===
/**
  The Notification Source characteristic's fixed 8-byte record: event id,
  event flags, category id, category count, then the notification uid as a
  little-endian `u32`.
 */
module NotificationSource {
  import opened Rust
  import opened Nom
  import Event
  import Category

  datatype Notification = Notification(
    eventId: Event.EventId,
    eventFlags: Event.EventFlag,
    categoryId: Category.CategoryId,
    categoryCount: uint8,
    notificationUid: uint32)

  /** `From<Notification> for [u8; 8]` */
  function Encode(n: Notification): (r: bytes)
    ensures |r| == 8
    ensures Event.EventIdTryFromByte(r[0]) == Some(n.eventId)
    ensures Event.EventFlagTryFromByte(r[1]) == Some(n.eventFlags)
    ensures r[1] == Event.EventFlagToByte(n.eventFlags)
    ensures Category.TryFromByte(r[2]) == Some(n.categoryId)
    ensures r[3] == n.categoryCount
    ensures U32FromLe(r[4], r[5], r[6], r[7]) == n.notificationUid
  {
    Event.EventIdRoundTrip(n.eventId);
    Event.EventFlagRoundTrip(n.eventFlags);
    Category.RoundTrip(n.categoryId);
    [Event.EventIdToByte(n.eventId), Event.EventFlagToByte(n.eventFlags),
     Category.ToByte(n.categoryId), n.categoryCount] + U32ToLe(n.notificationUid)
  }

  /**
    `Notification::parse`: four `le_u8` and a `count(le_u8, 4)`, so fewer than
    eight bytes is an `Error` at the end of the input; then the event id, the
    flags and the category go through `try_from(..).unwrap()`, which panics on
    a refused byte. The category count is taken as it is. A success consumes
    eight bytes and re-encodes to them, up to the flags byte, which only has
    to decode to the same flag.
   */
  function Parse(input: bytes): (r: ParseResult<Notification>)
    ensures !r.Failure?
    ensures r.Ok? ==> |input| >= 8 && r.rest == input[8..]
    ensures r.Ok? ==>
              var e := Encode(r.value);
              e[0] == input[0] && e[2..] == input[2..8] &&
              Event.EventFlagTryFromByte(input[1]) == Some(r.value.eventFlags)
  {
    var p0 :- LeU8(input);
    var (i, eventId) := p0;
    var p1 :- LeU8(i);
    var (i, eventFlags) := p1;
    var p2 :- LeU8(i);
    var (i, categoryId) := p2;
    var p3 :- LeU8(i);
    var (i, categoryCount) := p3;
    CountLeU8(4, i);
    var p4 :- Count(LeU8, 4, i);
    var (i, uid) := p4;
    assert uid == input[4..8] && i == input[8..];
    FromFields(input[..8], i)
  }

  /** The `try_from(..).unwrap()` calls on the eight bytes read, and the record built from them. */
  function FromFields(fields: bytes, rest: bytes): (r: ParseResult<Notification>)
    requires |fields| == 8
    ensures r.Ok? || r.Panic?
    ensures r.Panic? <==> fields[0] > 2 || Event.EventFlagTryFromByte(fields[1]).None? || fields[2] > 11
    ensures r.Ok? ==> r.rest == rest
    ensures r.Ok? ==>
              var e := Encode(r.value);
              e[0] == fields[0] && e[2..] == fields[2..] &&
              Event.EventFlagTryFromByte(fields[1]) == Some(r.value.eventFlags)
  {
    match (Event.EventIdTryFromByte(fields[0]), Event.EventFlagTryFromByte(fields[1]),
           Category.TryFromByte(fields[2]))
    case (Some(e), Some(f), Some(c)) =>
      var n := Notification(e, f, c, fields[3], U32FromLe(fields[4], fields[5], fields[6], fields[7]));
      U32LeInverse(fields[4], fields[5], fields[6], fields[7]);
      assert Encode(n)[4..] == fields[4..];
      Ok(rest, n)
    case _ => Panic
  }

  /**
    Fewer than eight bytes is an `Error` at the (empty) end of the input;
    eight or more panic exactly when the event id, the flags or the
    category is refused.
   */
  lemma ParseOutcome(input: bytes)
    ensures Parse(input).Error? <==> |input| < 8
    ensures Parse(input).Error? ==> Parse(input).at == []
    ensures Parse(input).Panic? <==>
              |input| >= 8 &&
              (input[0] > 2 || Event.EventFlagTryFromByte(input[1]).None? || input[2] > 11)
  {
    if |input| >= 4 {
      var i := input[4..];
      assert LeU8(input) == Ok(input[1..], input[0]);
      assert LeU8(input[1..]) == Ok(input[2..], input[1]);
      assert LeU8(input[2..]) == Ok(input[3..], input[2]);
      assert LeU8(input[3..]) == Ok(i, input[3]);
      CountLeU8(4, i);
      if |input| >= 8 {
        assert Parse(input) == FromFields(input[..8], input[8..]);
      } else {
        assert Count(LeU8, 4, i) == Error([]);
      }
    }
  }

  /** Every record parses back from its 8 bytes; anything after them is returned untouched. */
  lemma ParseEncode(n: Notification, rest: bytes)
    ensures Parse(Encode(n) + rest) == Ok(rest, n)
  {
    var input := Encode(n) + rest;
    Event.EventFlagRoundTrip(n.eventFlags);
    ParseOutcome(input);
    var r := Parse(input);
    assert r.Ok?;
    var m := r.value;
    Event.EventIdRoundTrip(m.eventId);
    Category.RoundTrip(m.categoryId);
    assert Encode(m)[2..] == Encode(n)[2..];
    assert Encode(m)[3] == Encode(n)[3];
    assert Encode(m)[4..8] == Encode(n)[4..8];
  }

  /** NotificationAdded / Silent / Other / 0 / `u32::MAX` is `[0, 1, 0, 0, 255, 255, 255, 255]`. */
  lemma EncodeExample()
    ensures Encode(Notification(Event.NotificationAdded, Event.Silent, Category.Other, 0, U32_MAX))
            == [0, 1, 0, 0, 255, 255, 255, 255]
  {
  }

  /**
    The flags byte is not canonical: `0x03` parses as `Silent`, whose
    re-encoding has `0x01` in its place.
   */
  lemma FlagsNotCanonical(input: bytes)
    requires input == [0, 3, 0, 0, 1, 2, 3, 4]
    ensures Parse(input).Ok?
    ensures Parse(input).value.eventFlags == Event.Silent
    ensures Encode(Parse(input).value) == [0, 1, 0, 0, 1, 2, 3, 4]
  {
    SilentReencoded(input);
    assert [input[0], 1] + input[2..8] == [0, 1, 0, 0, 1, 2, 3, 4];
  }

  /**
    Re-encoding any parsed record keeps only the lowest set bit of the flags
    byte read, and every other byte as read.
   */
  lemma ReencodedFlagsByte(input: bytes)
    requires Parse(input).Ok?
    ensures var e := Encode(Parse(input).value);
            e[1] == Event.Pow2(Event.TrailingZeros(input[1], 8)) &&
            e[0] == input[0] && e[2..] == input[2..8]
  {
    var f := Parse(input).value.eventFlags;
    var k, n := Event.FlagBitIndex(f), Event.TrailingZeros(input[1], 8);
    assert Event.IsLowestSetBit(input[1], k);
    assert !(n < k) && !(k < n);
  }

  /** A record read with flags byte `0x03` re-encodes with `0x01` there and every other byte as read. */
  lemma SilentReencoded(input: bytes)
    requires |input| >= 8 && input[0] <= 2 && input[1] == 3 && input[2] <= 11
    ensures Parse(input).Ok? && Parse(input).value.eventFlags == Event.Silent
    ensures Encode(Parse(input).value) == [input[0], 1] + input[2..8]
  {
    Event.EventFlagExamples();
    ParseOutcome(input);
    var e := Encode(Parse(input).value);
    assert e[1] == 1;
    assert e == [e[0], e[1]] + e[2..];
  }
}

=== FILE: rust.dfy ===
/**
  The pieces of the Rust standard library the codec relies on: fixed-width
  unsigned integers, `Option`, the value-or-panic outcome of an expression that
  may call `unwrap`, and the little-endian conversions `to_le_bytes` /
  `from_le_bytes` of `u16` and `u32`.
 */
module Rust {

  type uint8 = x: int | 0 <= x < 0x100
  type uint16 = x: int | 0 <= x < 0x1_0000
  type uint32 = x: int | 0 <= x < 0x1_0000_0000

  /** A byte slice or `Vec<u8>`. */
  type bytes = seq<uint8>

  const U16_MAX: uint16 := 0xFFFF
  const U32_MAX: uint32 := 0xFFFF_FFFF

  /**
    `Option<T>`; also used for the `Result` of every `try_from` of the codec,
    whose error carries no data: `()`, or `ActionIDError` for `ActionID`.
   */
  datatype Option<+T> = None | Some(value: T)

  /** What an expression that may panic (through `unwrap`) evaluates to. */
  datatype Outcome<+T> = Returned(value: T) | Panicked

  /** `u16::from_le_bytes([b0, b1])` */
  function U16FromLe(b0: uint8, b1: uint8): uint16
  {
    b0 + 0x100 * b1
  }

  /** `n.to_le_bytes()` for a `u16`: the low byte first. */
  function U16ToLe(n: uint16): (r: bytes)
    ensures |r| == 2
    ensures U16FromLe(r[0], r[1]) == n
  {
    [n % 0x100, n / 0x100]
  }

  /** The two conversions are mutually inverse: no byte pair is lost. */
  lemma U16LeInverse(b0: uint8, b1: uint8)
    ensures U16ToLe(U16FromLe(b0, b1)) == [b0, b1]
  {
    var n := U16FromLe(b0, b1);
    assert n % 0x100 == b0 && n / 0x100 == b1;
  }

  /** `u32::from_le_bytes([b0, b1, b2, b3])` */
  function U32FromLe(b0: uint8, b1: uint8, b2: uint8, b3: uint8): uint32
  {
    b0 + 0x100 * (b1 + 0x100 * (b2 + 0x100 * b3))
  }

  /** `n.to_le_bytes()` for a `u32`: the least significant byte first. */
  function U32ToLe(n: uint32): (r: bytes)
    ensures |r| == 4
    ensures U32FromLe(r[0], r[1], r[2], r[3]) == n
  {
    var q1 := n / 0x100;
    var q2 := q1 / 0x100;
    var q3 := q2 / 0x100;
    assert q3 < 0x100;
    [n % 0x100, q1 % 0x100, q2 % 0x100, q3]
  }

  lemma U32LeInverse(b0: uint8, b1: uint8, b2: uint8, b3: uint8)
    ensures U32ToLe(U32FromLe(b0, b1, b2, b3)) == [b0, b1, b2, b3]
  {
    var n2 := b2 + 0x100 * b3;
    var n1 := b1 + 0x100 * n2;
    var n := b0 + 0x100 * n1;
    assert n % 0x100 == b0 && n / 0x100 == n1;
    assert n1 % 0x100 == b1 && n1 / 0x100 == n2;
    assert n2 % 0x100 == b2 && n2 / 0x100 == b3;
  }

  /** `u32::MAX.to_le_bytes()` is four 0xFF bytes. */
  lemma U32MaxLe()
    ensures U32ToLe(U32_MAX) == [255, 255, 255, 255]
  {
    U32LeInverse(255, 255, 255, 255);
  }
}

=== FILE: utf8.dfy ===
/**
  Well-formed UTF-8 as defined by the grammar in section 4 of RFC 3629, which is
  the check `String::from_utf8` performs. A Rust `String` is modelled as its
  UTF-8 bytes under this predicate.
 */
module Utf8 {
  import opened Rust

  /** `UTF8-tail = %x80-BF` */
  predicate IsTail(b: uint8)
  {
    0x80 <= b <= 0xBF
  }

  /**
    The number of bytes of the well-formed character `s` starts with, or 0
    when `s` does not start with one (`UTF8-char` of section 4 of RFC 3629).
   */
  function CharWidth(s: bytes): (n: nat)
    ensures n <= 4 && n <= |s|
    ensures n == 1 <==> |s| > 0 && s[0] < 0x80
    ensures |s| > 0 && IsTail(s[0]) ==> n == 0
  {
    if |s| == 0 then 0
    else if s[0] <= 0x7F then 1
    else if 0xC2 <= s[0] <= 0xDF then
      if |s| >= 2 && IsTail(s[1]) then 2 else 0
    else if s[0] == 0xE0 then
      if |s| >= 3 && 0xA0 <= s[1] <= 0xBF && IsTail(s[2]) then 3 else 0
    else if 0xE1 <= s[0] <= 0xEC || 0xEE <= s[0] <= 0xEF then
      if |s| >= 3 && IsTail(s[1]) && IsTail(s[2]) then 3 else 0
    else if s[0] == 0xED then
      if |s| >= 3 && 0x80 <= s[1] <= 0x9F && IsTail(s[2]) then 3 else 0
    else if s[0] == 0xF0 then
      if |s| >= 4 && 0x90 <= s[1] <= 0xBF && IsTail(s[2]) && IsTail(s[3]) then 4 else 0
    else if 0xF1 <= s[0] <= 0xF3 then
      if |s| >= 4 && IsTail(s[1]) && IsTail(s[2]) && IsTail(s[3]) then 4 else 0
    else if s[0] == 0xF4 then
      if |s| >= 4 && 0x80 <= s[1] <= 0x8F && IsTail(s[2]) && IsTail(s[3]) then 4 else 0
    else 0
  }

  /** `UTF8-octets = *( UTF8-char )` */
  predicate ValidUtf8(s: bytes)
    decreases |s|
  {
    |s| == 0 || (CharWidth(s) > 0 && ValidUtf8(s[CharWidth(s)..]))
  }

  /** A Rust `String`, as the bytes `into_bytes` / `as_bytes` return. */
  type Str = s: bytes | ValidUtf8(s) witness []

  /** Every ASCII byte string is a `String`. */
  lemma {:induction false} AsciiIsValid(s: bytes)
    requires forall k :: 0 <= k < |s| ==> s[k] < 0x80
    ensures ValidUtf8(s)
    decreases |s|
  {
    if |s| > 0 {
      assert CharWidth(s) == 1;
      AsciiIsValid(s[1..]);
    }
  }

  /** A continuation byte can never start a character. */
  lemma TailStartsNoChar(s: bytes)
    requires |s| > 0 && IsTail(s[0])
    ensures !ValidUtf8(s)
  {
  }

  /**
    `s` followed by exactly one NUL byte unless it already ends with one: the
    null-terminated form ANCS requires of an app identifier on the wire.
   */
  function NulTerminated(s: bytes): (r: bytes)
    ensures |r| > 0 && r[|r| - 1] == 0
    ensures r == s || r == s + [0]
    ensures |s| > 0 && s[|s| - 1] == 0 ==> r == s
  {
    if |s| > 0 && s[|s| - 1] == 0 then s else s + [0]
  }

  /** Terminating twice changes nothing. */
  lemma NulTerminatedIdempotent(s: bytes)
    ensures NulTerminated(NulTerminated(s)) == NulTerminated(s)
  {
  }
}
